=== FILE: README.md ===
# Coder Duo payments and pages, modelled in Dafny

This project models two web products that live in one repository.

- **Coder Duo**: a coding-practice site. Users pay for credits through Razorpay, and their profiles and balances are stored in a hosted Supabase database.
- **OPCOR**: a grant-programme site with an FAQ accordion and a team roster.

Everything is modelled as pure functions over immutable data. JavaScript values (`undefined`, `null`, numbers, strings, objects) are written out explicitly in `Js.Value`, along with truthiness, `||`, `?.` and `String(v)`. This way every `!x`, `x || y` and `x?.y` in the handlers means exactly what it means in the source.

**Server side (Next.js route handlers).**

- *Order creation*: session → required fields → an `order_<timestamp>_<n>` id → Razorpay order for `amount * 100` paise in INR → response.
- *Payment verification*: HMAC over `order_id|payment_id` → session must be the user being credited → `verify_payment_and_add_credits` → response.
- *Webhook*: signature header → HMAC over the raw body → payment-or-refund entity → `handle_razorpay_webhook`.
- *Profile update*: strips `credits` and `plan` and updates only the caller's own row.
- *OAuth callback*: three-way redirect, always on the request's own origin.

Each handler returns its response together with the trace of remote effects it performed, in order. So "the credit procedure is never reached" is a statement about that trace.

**Client side.**

- *Question bank*: search filter, difficulty colours, and question links.
- *Plans* (shared by the pricing page and the credit modal): free plan, credit packs, and the best-value pack.
- *Credit modal*: default selection, bullets, Buy buttons, and the purchase flow, tied by lemmas to the order-creation and verification routes.
- *Dashboard*: the free-plan badge kept consistent with the balance, the credit-update handler, buying, saving the profile, and tab content.
- *Toasts*: the `useToast` list.
- *FAQ accordion*: toggle, timelines, and `**bold**` rendering.
- *Team roster*: expansion state and person cards.

Files: `base.dfy` (Option, filter, subsequences), `text.dfy` (split/join, trim, lower-casing, substring search, `encodeURIComponent`, decimal printing), `js.dfy`, `http.dfy`, one file per route or component.

## Model

| member | source | states |
|---|---|---|
| VerifyRoute.CreditResponse | Desktop/cosly/src/app/api/payment/razorpay/verify/route.ts:84-123 | A procedure error gives a 500 without success. A missing or unsuccessful result gives a 400 whose `error` and `code` fall back to 'Payment verification failed' and 'UNKNOWN'. A reply with no error, a truthy result and a truthy `success` gives the 200. `success: true` appears exactly on the 200, which reports `new_total`, `credits_added` and `previous_credits` as credits, creditsAdded and previousCredits. |
| VerifyRoute.Handle | Desktop/cosly/src/app/api/payment/razorpay/verify/route.ts:33-132 | Fail closed: the credit procedure is called only after the HMAC over `order|payment` equals the supplied signature and the session user is the body's `userId`. A bad signature is a 400 before the session is read. A valid signature with another user's session is a 401 and no call. A request that passes both checks calls the procedure with exactly the body's identifiers, and the response is then decided by its reply as `CreditResponse` states. Every throw is the 500 'Internal server error': an unreadable or null body before anything else is read, a failed session read behind a valid signature, and a rejected procedure call. Status 200 means `success: true`, and it happens only when the procedure reported the payment credited. |
| WebhookRoute.Entity | Desktop/cosly/src/app/api/payment/razorpay/webhook/route.ts:41 | The payment entity wins when it is truthy; otherwise the refund entity is used. |
| WebhookRoute.ReplyResponse | Desktop/cosly/src/app/api/payment/razorpay/webhook/route.ts:60-75 | A truthy procedure error, and only that, gives the 500 'Error processing webhook' with the error's message as details. Otherwise it is a 200 with received and processed true and the procedure's data as result. |
| WebhookRoute.Handle | Desktop/cosly/src/app/api/payment/razorpay/webhook/route.ts:9-84 | A missing or empty header is a 400 before the body is read. The body is parsed only after the HMAC over the raw body equals the header. A mismatch is a 400 with nothing parsed or forwarded. Only a truthy entity is forwarded, together with the event type. No entity gives a 400 and nothing is forwarded. A throw before the procedure is reached is the 500 'Webhook processing failed' with nothing forwarded: an unreadable body, a body that is not JSON, or a null event or payload. A signed event with a truthy entity is always forwarded; a throw from the procedure is then the 500 'Webhook processing failed', and otherwise its reply decides as `ReplyResponse` states. A 200 relays the procedure's data with received and processed true. |
| CreateRoute.OrderIdShape | Desktop/cosly/src/app/api/payment/razorpay/create/route.ts:59 | Every generated id reads back as `order_<Date.now()>_<n>` with n in 0..999 written in at most three digits. |
| CreateRoute.ProviderNotes | Desktop/cosly/src/app/api/payment/razorpay/create/route.ts:103-108 | The server's userId, packId and credits override the caller's notes under those keys. Every other caller note passes through unchanged, and no other key appears. |
| CreateRoute.ProviderResponse | Desktop/cosly/src/app/api/payment/razorpay/create/route.ts:113-162 | Status 200 exactly when Razorpay's reply has a truthy `id`. It then returns `amount * 100`, INR, the user, the local order id and that id as `razorpayOrderId`. An order without an id is the 500 'Failed to create Razorpay order'. |
| CreateRoute.Handle | Desktop/cosly/src/app/api/payment/razorpay/create/route.ts:34-170 | No session is a 401 before the body is read. A failed session read, or for a signed-in user an unreadable or null body, is the 500 'Internal server error' with nothing written or sent. A falsy packId, amount or credits (0 included) is a 400 with nothing written or sent. Razorpay is asked for `amount * 100` in INR, with the local order id as the default receipt and the session's user in the notes. Every signed-in request with the required fields reaches Razorpay, and its reply decides the response as `ProviderResponse` states, so an order without an id is the 500. A 200 returns that same amount, INR, the session's user, the generated order id and a truthy Razorpay order id. |
| UpdateRoute.Sanitize | Desktop/cosly/src/app/api/user/update/route.ts:23-24 | The update keeps exactly the request's keys other than `credits` and `plan`, with their values unchanged. |
| UpdateRoute.Handle | Desktop/cosly/src/app/api/user/update/route.ts:9-42 | No session is a 401 with no update. Otherwise exactly one update is issued: the sanitised body on the `users` row whose id is the session's user. A database error is a 400 with its message. Every throw is the 500 'Internal server error': a failed session read, an unreadable or null body (with no update issued), and a rejected update. Otherwise it is a 200 with the data. |
| AuthCallback.Handle | Desktop/cosly/src/app/auth/callback/route.ts:5-43 | Every redirect stays on the request's origin. No code or an empty code gives `/auth?error=` with 'No authentication code provided'. The dashboard is reached exactly when the code is exchanged without error. A returned error keeps its message. A thrown non-Error gives 'Authentication failed'. |
| AuthCallback.ErrorRedirectCarriesMessage | Desktop/cosly/src/app/auth/callback/route.ts:38-42 | The error redirect's query is `error=` followed only by URI-safe characters, so no `&` or `#` can be injected. For an ASCII message it decodes back to the message. |
| QuestionBank.Filter | Desktop/cosly/src/components/question-bank/question-bank.tsx:61-76 | A query that is blank after trimming shows the whole list. Otherwise the result is an order-preserving subsequence that keeps each question, as often as it occurs, exactly when the lower-cased untrimmed query occurs in the title, a tag or the difficulty. Missing tags or difficulty do not match. |
| QuestionBank.DifficultyColor | Desktop/cosly/src/components/question-bank/question-bank.tsx:83-89 | "easy" in any letter case gives success, "medium" gives warning, and everything else, a missing difficulty included, gives danger. |
| QuestionBank.QuestionPathCarriesTitle | Desktop/cosly/src/components/question-bank/question-bank.tsx:78-81 | The question link is `/dashboard/question_bank/` followed by one URI-safe segment, which decodes to an ASCII title. |
| Plans.BelowIsCheaper | Desktop/cosly/src/components/credit/credit-modal.tsx:106-110 | For packs with positive credits, comparing `price / credits` is the same as comparing cross products. |
| Plans.BestValuePack | Desktop/cosly/src/components/credit/credit-modal.tsx:102-111 | No packs gives null; otherwise the result is one of the packs. When every pack grants credits, it is the first pack with the lowest price per credit: none is cheaper, and every earlier pack is strictly dearer. |
| Plans.FreePlan | Desktop/cosly/src/components/pricing.tsx:24-26 | The first plan priced 0, or null exactly when no plan is free. |
| Plans.CreditPacks | Desktop/cosly/src/components/pricing.tsx:28-30 | The packs in display order, each as often as in the plan list, and nothing else. |
| Pricing.ParseDescription | Desktop/cosly/src/components/pricing.tsx:55-58 | An empty description gives no bullets. Otherwise the lines, blank ones included, contain no newline and join with newlines back to the description. |
| Pricing.Load | Desktop/cosly/src/components/pricing.tsx:16-53 | The page shows every plan, the first free plan and all the `is_pack` plans in order. Best value is missing exactly when no plan is a pack. Otherwise it is one of the packs, and when every pack grants credits it is the first pack with the lowest price per credit. |
| CreditModal.DefaultSelection | Desktop/cosly/src/components/credit/credit-modal.tsx:61-66 | A non-empty `selectedPackId` wins; otherwise the first pack's id; with no packs the selection is left alone. |
| CreditModal.Bullets | Desktop/cosly/src/components/credit/credit-modal.tsx:258 | The description's lines that do not trim to nothing, in order, each as often as it occurs, and no others. |
| CreditModal.BulletsAreNotBlank | Desktop/cosly/src/components/credit/credit-modal.tsx:258 | No bullet is made only of white space. |
| CreditModal.BulletsKeepNonBlankLines | Desktop/cosly/src/components/credit/credit-modal.tsx:258 | Every line that is not all white space is a bullet, as often as it is a line; all-white-space lines never are. |
| CreditModal.BulletsAreNonBlankLines | Desktop/cosly/src/components/credit/credit-modal.tsx:258 | The modal's bullets are the pricing page's description lines with the blank ones dropped. |
| CreditModal.BuyButton | Desktop/cosly/src/components/credit/credit-modal.tsx:294-306 | Loading exactly for the pack being processed, disabled exactly for every other pack while one is processing, never both. The label follows loading. |
| CreditModal.OrderBody | Desktop/cosly/src/components/credit/credit-modal.tsx:122-139 | The create route reads the pack's id, price and credits back from the posted body. |
| CreditModal.AfterOrder | Desktop/cosly/src/components/credit/credit-modal.tsx:141-223 | The checkout opens exactly when the order reply is an object with a truthy `razorpayOrderId` and the gateway script is loaded. Otherwise an alert is shown. The widget gets the reply's order id and amount, INR by default, and the modal's user, pack and credits in its notes. |
| CreditModal.CheckoutChargesPackPrice | Desktop/cosly/src/components/credit/credit-modal.tsx:121-165 | A 200 from the create route for the modal's order opens the checkout for the pack's price times 100, in INR, for the generated order id. |
| CreditModal.VerifyBody | Desktop/cosly/src/components/credit/credit-modal.tsx:183-196 | The verify route reads the widget's order, payment and signature, and the modal's user, pack and credits, from the posted body. |
| CreditModal.AfterVerification | Desktop/cosly/src/components/credit/credit-modal.tsx:198-211 | `onCreditsUpdated` fires exactly when a callback was passed, success is truthy and credits is truthy, and it gets that credits value. The modal closes exactly on success. The failure alert is shown exactly on a non-success reply. |
| CreditModal.ClosesOnlyWhenCredited | Desktop/cosly/src/components/credit/credit-modal.tsx:198-207 | Fed the verify route's response, the modal closes exactly when the route answered 200, and that happens only for a payment the procedure credited. |
| Toasts.Add | Desktop/cosly/src/components/ui/toast.tsx:116-128 | Appends exactly one toast with the given id, kind, title and message, keeps the earlier toasts, returns the id, and schedules removal only when a duration is given. |
| Toasts.Remove | Desktop/cosly/src/components/ui/toast.tsx:130-132 | Drops every toast with that id and keeps the rest in order. An absent id leaves the list unchanged. |
| Toasts.RemoveUndoesAdd | Desktop/cosly/src/components/ui/toast.tsx:116-132 | Removing a freshly added toast's id gives back the list before the add. |
| Toasts.ShowSuccess | Desktop/cosly/src/components/ui/toast.tsx:134-135 | Appends a success toast. |
| Toasts.ShowError | Desktop/cosly/src/components/ui/toast.tsx:137-138 | Appends an error toast. |
| Toasts.ShowWarning | Desktop/cosly/src/components/ui/toast.tsx:140-141 | Appends a warning toast. |
| Toasts.ShowInfo | Desktop/cosly/src/components/ui/toast.tsx:143-144 | Appends an info toast. |
| Dashboard.InitialConsistent | Desktop/cosly/src/app/dashboard/page.tsx:48-49 | The initial state (0 credits, free) shows the free badge consistently. |
| Dashboard.LoadProfile | Desktop/cosly/src/app/dashboard/page.tsx:62-95 | A row sets the balance to `credits \|\| 0`, the free badge to balance <= 3, the username to `name \|\| ""` and the display name to `name \|\| "Coder"`. Before the row query, a truthy `authData?.user?.email` from `auth.getUser()` becomes the page's email, whatever the query then gives; a throw from `getUser` changes nothing. After that, an error or no row changes nothing more. Nothing but the email, the balance, the badge and the two names ever changes. Badge consistency is kept. |
| Dashboard.HandleCreditUpdate | Desktop/cosly/src/app/dashboard/page.tsx:224-237 | The balance becomes the new credits and the badge is recomputed from it. Exactly one success toast 'Credits Updated', stating the new balance, is appended. The credit modal is closed. Nothing else in the state changes. |
| Dashboard.BuyCredits | Desktop/cosly/src/app/dashboard/page.tsx:186-222 | A non-empty pack id becomes the selection, and any other leaves the selection alone. The modal opens at once when the checkout script is loaded; otherwise the script is loaded first. Nothing but the selection and the credit modal changes. |
| Dashboard.SaveProfile | Desktop/cosly/src/app/dashboard/page.tsx:239-260 | Without a user id nothing is sent and nothing changes. Otherwise `{ name: displayName }` is sent for the user's row. A successful update, and only that, changes the state: it sets the username to the display name and closes the profile modal. |
| Dashboard.RenderContent | Desktop/cosly/src/app/dashboard/page.tsx:288-367 | Content exactly for home, bank, problems and solutions; null for any other tab. |
| Faq.Toggle | Desktop/opcor/src/app/components/aboutus/faq.tsx:144-146 | Clicking the open question closes it; clicking any other question opens that one. |
| Faq.ToggleTwice | Desktop/opcor/src/app/components/aboutus/faq.tsx:144-146 | Toggling twice restores the state exactly when that question or nothing was open; otherwise everything ends closed. |
| Faq.Motions | Desktop/opcor/src/app/components/aboutus/faq.tsx:148-156 | After a toggle the newly open item's timeline plays and every other item's reverses. |
| Faq.AtMostOnePlays | Desktop/opcor/src/app/components/aboutus/faq.tsx:144-156 | After any toggle at most one timeline plays, and it is the clicked item's. |
| Faq.RenderBold | Desktop/opcor/src/app/components/aboutus/faq.tsx:159-174 | Splitting on `**` gives runs where exactly the odd-numbered ones are bold. No run contains `**`, and joining the runs with `**` restores the text. |
| Faq.RenderAnswer | Desktop/opcor/src/app/components/aboutus/faq.tsx:176-208 | Text and list answers are shown verbatim. Each column keeps its title, and each column item is its bold rendering, which rejoins to the item. |
| Roster.InitialExpandedKeys | src/app/components/people/note.tsx:170-176 | The initial expansion map has an entry for exactly the sections' titles. |
| Roster.InitialExpandedLastWins | src/app/components/people/note.tsx:170-176 | A title's entry is `defaultExpanded ?? false` of the last section with that title. |
| Roster.ToggleSection | src/app/components/people/note.tsx:178-180 | Flips one section, with a missing entry counting as closed, and keeps every other entry. |
| Roster.ToggleTwice | src/app/components/people/note.tsx:178-180 | Toggling twice leaves every section open or closed as before. Once the section has an entry, the map itself is unchanged. |
| Roster.PersonCard | src/app/components/people/note.tsx:71-142 | The position falls back to "MEMBER". There is a link for each of website, LinkedIn and Twitter exactly when that field is non-empty, in that order. The name is the member's. An image or bio is shown exactly when it is non-empty; without an image the card shows the NO_IMG placeholder. Funded projects are shown as given. |
| Roster.SectionBody | src/app/components/people/note.tsx:209-225 | Nothing while closed. An open section with no members shows the empty state; otherwise it shows one card per member, in order. |
| Text.JoinSplit | Desktop/cosly/src/components/pricing.tsx:57 | Joining the parts of `split(sep)` with `sep` restores the string. |
| Text.TrimEmptyIffBlank | Desktop/cosly/src/components/question-bank/question-bank.tsx:63 | `trim()` yields "" exactly for whitespace-only strings. |
| Text.DecodeEncodeAscii | Desktop/cosly/src/app/auth/callback/route.ts:40 | `encodeURIComponent` of ASCII text percent-decodes back to the text. |

## Left out

- HMAC-SHA256 is a function parameter (`VerifyRoute.Hmac`) and is left uninterpreted. Its hex encoding and the comparison of digests are only as strong as string equality.
- Remote calls are parameters of the handlers. This covers the Supabase session read, queries and RPCs, the Razorpay order API, the OAuth code exchange, `req.json()`, `req.text()` and `JSON.parse`. Their settled results are inputs, given as `Await` values: resolved or rejected.
- The credit procedures' idempotency and locking, so that a replayed payment is not credited twice, belong to the database. Nothing here claims them.
- `Date.now()` and `Math.random()` are parameters. So is the toast id that `Math.random().toString(36)` produces, so ids are not assumed unique.
- Numbers are integers. Fractional prices and amounts are not modelled. The per-credit price shown in the modal (`Math.round(price / credits * 100) / 100`) is not modelled.
- Environment-variable fallbacks, including the hard-coded test keys and secrets, are not modelled. Neither is the choice between the service-role and anonymous database clients: either client issues the same call.
- Object spread and rest of a string or array, which would give index keys, are treated as spreading nothing.
- Responses are the object handed to `NextResponse.json`. The serialisation that drops `undefined` fields and the HTTP encoding are not modelled.
- VerifyRoute.CreditResponse: the `details` of a procedure error are always `String(error)`. The `instanceof Error` branch is not modelled, because the database client returns plain error objects.
- AuthCallback.Handle: the no-code redirect is modelled as `/auth?error=` followed by the `encodeURIComponent` of the message. The source writes the query literally, and the URL parser escapes its spaces to the same `%20`. Parsing `req.url` and reading the `code` parameter are not modelled: the code is an input.
- AuthCallback.ErrorRedirectCarriesMessage: the decoding round trip is stated for ASCII messages only.
- Text.Lower: only the ASCII letters A-Z are lower-cased, where `toLowerCase` maps every cased letter. So `QuestionBank.Filter` does not match the query "é" against the title "École", which the page would.
- Js.StringToNumber: only blank text and optionally signed decimal integers convert. The other forms `Number` accepts (`1.0`, `1e3`, `0x1F`, `Infinity`) give NaN here, so `Times(amount, 100)` in the create route is NaN for such a string amount.
- Js.Render: numbers are unbounded integers printed in plain decimal. Double-precision rounding above 2^53 and the exponent form JavaScript prints from 1e21 up are not modelled.
- AuthCallback.ErrorRedirect: the query keeps `'` as `encodeURIComponent` leaves it. The redirect's URL serialiser escapes it to `%27`, which is not modelled.
- Plans.BestValuePack: the first-cheapest guarantee is stated only when every pack grants a positive number of credits. With zero or negative credits, the JavaScript divisions (Infinity, NaN) are modelled in `Plans.Divide`, but no ordering is claimed.
- Loading data is not modelled. This covers fetching questions, plans and packs, the user's name and email in the modal, the dashboard's auth-state listener, the initial session and sign-out. The fetched values are inputs to the functions above.
- Timers, transitions and animation are not modelled. This covers the toast auto-dismiss and close delay, GSAP timelines beyond the play-or-reverse decision, and framer-motion. Markup and styling are also out, apart from the decisions listed in the table.
- The checkout script's asynchronous loading is not modelled. `Dashboard.BuyCredits` reports that a load starts; the later `onload`/`onerror` handlers are not modelled.
- The FAQ entries, the team-roster data and other static copy are not reproduced. The accordion and roster functions take them as inputs.

## Notes on the source

- The verify handler checks the signature before it reads the session. So a bad signature together with another user's session gets the 400 'Invalid payment signature', not the 401.
- The create route reports Razorpay's order id under the key `razorpayOrderId`.
- The best-effort writes to `payment_orders` never affect the response. `CreateRoute.Handle` discards their results, exactly as the source does.

=== FILE: auth_callback.dfy ===
/** `GET /auth/callback`: the OAuth redirect target. It exchanges the `code`
    query parameter for a session and redirects, always on the request's
    own origin, to the dashboard or back to the sign-in page with an error. */
module AuthCallback {
  import opened Base
  import opened Http
  import Text

  /** The parts of the request URL the handler uses. */
  datatype Request = Request(origin: string, code: Option<string>)

  const NoCodeMessage := "No authentication code provided"
  const FallbackMessage := "Authentication failed"

  /** The message of what was thrown: an `Error`'s own message, otherwise the fallback. */
  function MessageOf(e: Thrown): string {
    match e
    case ErrorInstance(m) => m
    case NonError(_) => FallbackMessage
  }

  /** `/auth?error=<encoded message>` on the given origin. */
  function ErrorRedirect(origin: string, message: string): (r: Response)
    ensures r.Redirect? && r.location.origin == origin
    ensures r.location.path == "/auth" && r.location.path != "/dashboard"
  {
    assert |"/auth"| != |"/dashboard"|;
    Redirect(Url(origin, "/auth", "error=" + Text.EncodeURIComponent(message)))
  }

  /** The handler. `exchange(code)` is the settled `exchangeCodeForSession`:
      `Resolved(None)` on success, `Resolved(Some(m))` when it returns an
      error with message `m` (which the handler rethrows), `Rejected` when it throws. */
  function Handle(req: Request, exchange: string -> Await<Option<string>>): (r: Response)
    ensures r.Redirect? && r.location.origin == req.origin
    // no code: sent back with the fixed message, and no exchange is attempted
    ensures req.code.None? || req.code == Some("") ==>
              r == ErrorRedirect(req.origin, NoCodeMessage)
    // the dashboard is reached exactly when a code was exchanged without error
    ensures r.location.path == "/dashboard" <==>
              req.code.Some? && req.code.value != "" && exchange(req.code.value) == Resolved(None)
    ensures r.location.path == "/dashboard" ==> r.location.query == ""
    // a returned error keeps its message; a thrown non-Error gets the fallback
    ensures req.code.Some? && req.code.value != "" && exchange(req.code.value).Resolved?
            && exchange(req.code.value).value.Some? ==>
              r == ErrorRedirect(req.origin, exchange(req.code.value).value.value)
    ensures req.code.Some? && req.code.value != "" && exchange(req.code.value).Rejected? ==>
              r == ErrorRedirect(req.origin, MessageOf(exchange(req.code.value).reason))
  {
    if req.code.None? || req.code.value == "" then
      ErrorRedirect(req.origin, NoCodeMessage)
    else
      match exchange(req.code.value)
      case Resolved(None) => Redirect(Url(req.origin, "/dashboard", ""))
      case Resolved(Some(m)) => ErrorRedirect(req.origin, m)
      case Rejected(e) => ErrorRedirect(req.origin, MessageOf(e))
  }

  /** An error redirect carries exactly one query parameter, whose value
      holds no `&`, `#`, `/` or `?` and, for an ASCII message, decodes back
      to the message. */
  lemma ErrorRedirectCarriesMessage(origin: string, message: string)
    ensures ErrorRedirect(origin, message).location.path == "/auth"
    ensures var q := ErrorRedirect(origin, message).location.query;
              && q[..6] == "error="
              && (forall i :: 6 <= i < |q| ==> Text.IsUriSafe(q[i]))
              && (Text.IsAscii(message) ==> Text.DecodeAscii(q[6..]) == message)
  {
    var e := Text.EncodeURIComponent(message);
    var q := "error=" + e;
    Text.EncodedIsUriSafe(message);
    assert forall i :: 6 <= i < |q| ==> q[i] == e[i - 6];
    assert q[6..] == e;
    if Text.IsAscii(message) {
      Text.DecodeEncodeAscii(message);
    }
  }
}

=== FILE: base.dfy ===
/** Small shared vocabulary: an optional value, and `Array.prototype.filter`
    with what it promises about the kept elements. */
module Base {

  /** A value that may be absent: JavaScript's `null`/`undefined` for a typed field. */
  datatype Option<+T> = None | Some(value: T) {

    /** The value, or `default` when absent (`x ?? default`). */
    function GetOr(default: T): T {
      match this
      case Some(v) => v
      case None => default
    }
  }

  /** `a` is `b` with some elements dropped and the rest in their original order. */
  predicate IsSubsequence<T(==)>(a: seq<T>, b: seq<T>)
    decreases |b|
  {
    if |a| == 0 then true
    else if |b| == 0 then false
    else if a[0] == b[0] then IsSubsequence(a[1..], b[1..])
    else IsSubsequence(a, b[1..])
  }

  lemma {:induction false} SubsequenceOfItself<T>(s: seq<T>)
    ensures IsSubsequence(s, s)
    decreases |s|
  {
    if |s| > 0 {
      SubsequenceOfItself(s[1..]);
    }
  }

  /** `s.filter(keep)`: the elements `keep` accepts, each as often as in
      `s`, in their original order. */
  function Filter<T(==,!new)>(s: seq<T>, keep: T -> bool): (r: seq<T>)
    ensures IsSubsequence(r, s)
    ensures forall x :: multiset(r)[x] == if keep(x) then multiset(s)[x] else 0
    ensures forall i :: 0 <= i < |r| ==> keep(r[i])
    ensures (forall i :: 0 <= i < |s| ==> keep(s[i])) ==> r == s
  {
    if |s| == 0 then []
    else
      var rest := Filter(s[1..], keep);
      assert s == [s[0]] + s[1..];
      assert multiset(s) == multiset{s[0]} + multiset(s[1..]);
      if keep(s[0]) then
        var r := [s[0]] + rest;
        assert r[0] == s[0] && r[1..] == rest;
        assert multiset(r) == multiset{s[0]} + multiset(rest);
        r
      else
        // the first kept element is not the dropped head, since `keep` tells them apart
        assert |rest| > 0 ==> keep(rest[0]) && rest[0] != s[0];
        rest
  }

  /** Filtering a concatenation filters each part. */
  lemma {:induction false} FilterAppend<T(!new)>(a: seq<T>, b: seq<T>, keep: T -> bool)
    ensures Filter(a + b, keep) == Filter(a, keep) + Filter(b, keep)
    decreases |a|
  {
    if |a| == 0 {
      assert a + b == b;
    } else {
      assert (a + b)[1..] == a[1..] + b;
      FilterAppend(a[1..], b, keep);
    }
  }
}

=== FILE: create_route.dfy ===
/** `POST /api/payment/razorpay/create`. The handler requires a session,
    requires truthy `packId`, `amount` and `credits`, makes up a local order
    id from the clock and a random number, records the order best-effort,
    asks Razorpay to create an order for `amount * 100` paise, and returns
    the identifiers the checkout widget needs. */
module CreateRoute {
  import opened Base
  import opened Js
  import opened Http
  import Text

  /** The fields the handler destructures from the request body. */
  datatype OrderRequest = OrderRequest(
    packId: Value, amount: Value, planId: Value, credits: Value, receipt: Value, notes: Value)

  function RequestOf(json: Value): OrderRequest {
    OrderRequest(Get(json, "packId"), Get(json, "amount"), Get(json, "planId"),
                 Get(json, "credits"), Get(json, "receipt"), Get(json, "notes"))
  }

  /** The row written to `payment_orders`. */
  datatype OrderRow = OrderRow(
    userId: string, orderId: string, packId: Value, planId: Value,
    amount: Value, credits: Value, status: string, notes: Value)

  /** The JSON body posted to the Razorpay orders endpoint. */
  datatype ProviderRequest = ProviderRequest(
    amount: Value, currency: string, receipt: Value, notes: map<string, Value>)

  /** The remote effects of one request, in order. */
  datatype Step =
    | ReadSession
    | ReadBody
    | InsertOrder(row: OrderRow)
    | CreateProviderOrder(request: ProviderRequest)
    | UpdateOrder(orderId: string, providerOrder: Value)

  datatype Outcome = Outcome(response: Response, steps: seq<Step>)

  const Currency := "INR"

  /** Razorpay takes amounts in paise. */
  const MinorUnits := 100

  const InternalError: Response := ErrorJson(500, "Internal server error")
  const Unauthorized: Response := ErrorJson(401, "Unauthorized - Please sign in")
  const MissingParameters: Response := ErrorJson(400, "Missing required parameters")
  const ProviderFailed: Response := ErrorJson(500, "Failed to create Razorpay order")

  /** `Math.floor(Math.random() * 1000)` for a draw in [0, 1). */
  function Suffix(random: real): (n: nat)
    requires 0.0 <= random < 1.0
    ensures n <= 999
  {
    (random * 1000.0).Floor
  }

  /** `order_${Date.now()}_${suffix}`. */
  function OrderId(now: nat, random: real): string
    requires 0.0 <= random < 1.0
  {
    "order_" + Text.Decimal(now) + "_" + Text.Decimal(Suffix(random))
  }

  /** Reads an order id back into its timestamp and suffix. */
  function ParseOrderId(id: string): Option<(nat, nat)> {
    if |id| >= 6 && id[..6] == "order_" then
      var parts := Text.Split(id[6..], "_");
      if |parts| == 2 && parts[0] != "" && parts[1] != ""
         && Text.AllDigits(parts[0]) && Text.AllDigits(parts[1]) then
        Some((Text.DigitsValue(parts[0]), Text.DigitsValue(parts[1])))
      else None
    else None
  }

  /** Every generated order id has the shape `order_<timestamp>_<n>` with a
      suffix of at most three digits, 0 <= n <= 999, and reads back to the
      timestamp and suffix it was made from. */
  lemma OrderIdShape(now: nat, random: real)
    requires 0.0 <= random < 1.0
    ensures ParseOrderId(OrderId(now, random)) == Some((now, Suffix(random)))
    ensures Suffix(random) <= 999 && |Text.Decimal(Suffix(random))| <= 3
  {
    var t := Text.Decimal(now);
    var n := Text.Decimal(Suffix(random));
    var id := OrderId(now, random);
    assert id[..6] == "order_";
    assert id[6..] == t + ['_'] + n;
    Text.SplitAfterPrefix(t, '_', n);
    Text.SplitWithoutSep(n, '_');
    Text.DecimalRoundTrip(now);
    Text.DecimalRoundTrip(Suffix(random));
    Text.DecimalBelowThousand(Suffix(random));
  }

  /** `{ ...notes, userId, packId, credits }`: the server's values override
      whatever the caller put under those three keys; every other caller
      note is passed through unchanged. */
  function ProviderNotes(notes: Value, userId: string, packId: Value, credits: Value): (m: map<string, Value>)
    ensures "userId" in m && m["userId"] == Str(userId)
    ensures "packId" in m && m["packId"] == packId
    ensures "credits" in m && m["credits"] == credits
    ensures m.Keys == Spread(notes).Keys + {"userId", "packId", "credits"}
    ensures forall k :: k in Spread(notes) && k !in {"userId", "packId", "credits"} ==>
              m[k] == Spread(notes)[k]
  {
    Spread(notes)["userId" := Str(userId)]["packId" := packId]["credits" := credits]
  }

  /** The three required fields are all truthy (`!packId || !amount || !credits` fails). */
  predicate HasRequired(r: OrderRequest) {
    Truthy(r.packId) && Truthy(r.amount) && Truthy(r.credits)
  }

  predicate CallsProvider(o: Outcome) {
    exists s :: s in o.steps && s.CreateProviderOrder?
  }

  /** The request Razorpay is sent for a validated order. */
  function ProviderRequestFor(r: OrderRequest, userId: string, orderId: string): ProviderRequest {
    ProviderRequest(Times(r.amount, MinorUnits), Currency, Or(r.receipt, Str(orderId)),
                    ProviderNotes(r.notes, userId, r.packId, r.credits))
  }

  /** The 200 response once Razorpay has returned an order id. */
  function Created(keyId: string, r: OrderRequest, userId: string, orderId: string, providerId: Value): (resp: Response)
    requires Truthy(providerId)
    ensures resp.Json? && resp.status == 200
    ensures Field(resp, "amount") == Times(r.amount, MinorUnits)
    ensures Field(resp, "currency") == Str(Currency)
    ensures Field(resp, "userId") == Str(userId)
    ensures Field(resp, "orderId") == Str(orderId)
    ensures Truthy(Field(resp, "razorpayOrderId"))
  {
    Json(200, map[
      "orderId" := Str(orderId),
      "razorpayOrderId" := providerId,
      "amount" := Times(r.amount, MinorUnits),
      "currency" := Str(Currency),
      "keyId" := Str(keyId),
      "packId" := r.packId,
      "credits" := r.credits,
      "userId" := Str(userId),
      "notes" := r.notes])
  }

  /** Razorpay answered with an order that has an id. */
  predicate Accepted(reply: Await<Value>) {
    reply.Resolved? && !reply.value.IsNullish() && Truthy(Get(reply.value, "id"))
  }

  /** The response once Razorpay's reply is in: a rejection, or reading `.id`
      of a nullish reply, is a 500; an order without an id is the provider failure. */
  function ProviderResponse(keyId: string, r: OrderRequest, userId: string, orderId: string,
                            reply: Await<Value>): (resp: Response)
    ensures resp.Json? && resp.status in {200, 500}
    ensures resp.status == 200 <==> Accepted(reply)
    ensures !Accepted(reply) && reply.Resolved? && !reply.value.IsNullish() ==> resp == ProviderFailed
    ensures resp.status == 200 ==>
              && Field(resp, "amount") == Times(r.amount, MinorUnits)
              && Field(resp, "currency") == Str(Currency)
              && Field(resp, "userId") == Str(userId)
              && Field(resp, "orderId") == Str(orderId)
              && Field(resp, "razorpayOrderId") == Get(reply.value, "id")
              && Truthy(Field(resp, "razorpayOrderId"))
  {
    match reply
    case Rejected(_) => InternalError
    case Resolved(order) =>
      if order.IsNullish() then InternalError
      else if !Truthy(Get(order, "id")) then ProviderFailed
      else Created(keyId, r, userId, orderId, Get(order, "id"))
  }

  /** What happens once the session and the required fields have been checked. */
  function Place(keyId: string, userId: string, r: OrderRequest, orderId: string,
                 insert: OrderRow -> Await<Reply>,
                 provider: ProviderRequest -> Await<Value>,
                 update: (string, Value) -> Await<Reply>): (o: Outcome)
    requires HasRequired(r)
    ensures o.response.Json? && o.response.status in {200, 500}
    // the order is stored, Razorpay is asked once, and the order is updated only on success
    ensures CreateProviderOrder(ProviderRequestFor(r, userId, orderId)) in o.steps
    ensures forall s :: s in o.steps && s.CreateProviderOrder? ==>
              s.request == ProviderRequestFor(r, userId, orderId)
    ensures (exists s :: s in o.steps && s.UpdateOrder?) <==> o.response.status == 200
    // Razorpay's reply to that request alone decides the response
    ensures o.response == ProviderResponse(keyId, r, userId, orderId,
                                           provider(ProviderRequestFor(r, userId, orderId)))
    ensures o.response.status == 200 ==>
              && Field(o.response, "amount") == Times(r.amount, MinorUnits)
              && Field(o.response, "currency") == Str(Currency)
              && Field(o.response, "userId") == Str(userId)
              && Field(o.response, "orderId") == Str(orderId)
              && Truthy(Field(o.response, "razorpayOrderId"))
  {
    var row := OrderRow(userId, orderId, r.packId, r.planId, r.amount, r.credits,
                        "created", Or(r.notes, Obj(map[])));
    // the insert's outcome, success or failure, is discarded
    var _ := insert(row);
    var request := ProviderRequestFor(r, userId, orderId);
    var steps := [ReadSession, ReadBody, InsertOrder(row), CreateProviderOrder(request)];
    var reply := provider(request);
    var response := ProviderResponse(keyId, r, userId, orderId, reply);
    if Accepted(reply) then
      // the update's outcome is discarded as well
      var _ := update(orderId, reply.value);
      var all := steps + [UpdateOrder(orderId, reply.value)];
      assert UpdateOrder(orderId, reply.value) in all;
      assert forall s :: s in all ==> s in steps || s.UpdateOrder?;
      Outcome(response, all)
    else
      assert forall s :: s in steps ==> !s.UpdateOrder?;
      Outcome(response, steps)
  }

  /** The handler. `session` and `body` are the settled session read and
      `req.json()`; `now` is `Date.now()` and `random` is `Math.random()`;
      `insert` and `update` are the best-effort writes to `payment_orders`,
      `provider` the settled Razorpay reply (`fetch` then `response.json()`). */
  function Handle(keyId: string, session: Await<Option<Session>>, body: Await<Value>,
                  now: nat, random: real,
                  insert: OrderRow -> Await<Reply>,
                  provider: ProviderRequest -> Await<Value>,
                  update: (string, Value) -> Await<Reply>): (o: Outcome)
    requires 0.0 <= random < 1.0
    ensures o.response.Json? && o.response.status in {200, 400, 401, 500}
    // no session: refused before the body is looked at
    ensures session == Resolved(None) ==> o.response == Unauthorized && o.steps == [ReadSession]
    // a throw while reading the session or the body, or a null body, is the 500
    ensures session.Rejected? ==> o.response == InternalError && o.steps == [ReadSession]
    ensures session.Resolved? && session.value.Some?
            && (body.Rejected? || (body.Resolved? && body.value.IsNullish())) ==>
              o.response == InternalError && o.steps == [ReadSession, ReadBody]
    // a falsy required field (0 included) is refused before anything is written or sent
    ensures session.Resolved? && session.value.Some? && body.Resolved? && !body.value.IsNullish()
            && !HasRequired(RequestOf(body.value)) ==>
              o.response == MissingParameters && o.steps == [ReadSession, ReadBody]
    // a signed-in request with every required field reaches Razorpay, whose reply decides
    ensures session.Resolved? && session.value.Some? && body.Resolved? && !body.value.IsNullish()
            && HasRequired(RequestOf(body.value)) ==>
              && CallsProvider(o)
              && o.response
                 == ProviderResponse(keyId, RequestOf(body.value), session.value.value.userId,
                                     OrderId(now, random),
                                     provider(ProviderRequestFor(RequestOf(body.value),
                                                                 session.value.value.userId,
                                                                 OrderId(now, random))))
    // what Razorpay is asked for: `amount * 100` in INR, the order id as
    // default receipt, and the server's user id in the notes
    ensures forall s :: s in o.steps && s.CreateProviderOrder? ==>
              && session.Resolved? && session.value.Some? && body.Resolved?
              && HasRequired(RequestOf(body.value))
              && s.request
                 == ProviderRequestFor(RequestOf(body.value), session.value.value.userId, OrderId(now, random))
    // what the caller gets back: the same `amount * 100` and the session's user
    ensures o.response.status == 200 ==>
              && CallsProvider(o)
              && session.Resolved? && session.value.Some? && body.Resolved?
              && Field(o.response, "amount") == Times(RequestOf(body.value).amount, MinorUnits)
              && Field(o.response, "currency") == Str(Currency)
              && Field(o.response, "userId") == Str(session.value.value.userId)
              && Field(o.response, "orderId") == Str(OrderId(now, random))
              && Truthy(Field(o.response, "razorpayOrderId"))
  {
    match session
    case Rejected(_) => Outcome(InternalError, [ReadSession])
    case Resolved(None) => Outcome(Unauthorized, [ReadSession])
    case Resolved(Some(user)) =>
      match body
      case Rejected(_) => Outcome(InternalError, [ReadSession, ReadBody])
      case Resolved(json) =>
        if json.IsNullish() then
          // destructuring `null` throws
          Outcome(InternalError, [ReadSession, ReadBody])
        else
          var r := RequestOf(json);
          if !HasRequired(r) then
            Outcome(MissingParameters, [ReadSession, ReadBody])
          else
            Place(keyId, user.userId, r, OrderId(now, random), insert, provider, update)
  }

  /** The outcome of the best-effort writes to `payment_orders` never
      changes what the handler does. */
  lemma StoreFailuresIgnored(keyId: string, session: Await<Option<Session>>, body: Await<Value>,
                             now: nat, random: real,
                             provider: ProviderRequest -> Await<Value>,
                             insert1: OrderRow -> Await<Reply>, update1: (string, Value) -> Await<Reply>,
                             insert2: OrderRow -> Await<Reply>, update2: (string, Value) -> Await<Reply>)
    requires 0.0 <= random < 1.0
    ensures Handle(keyId, session, body, now, random, insert1, provider, update1)
         == Handle(keyId, session, body, now, random, insert2, provider, update2)
  {
  }
}

=== FILE: credit_modal.dfy ===
/** The credit modal: it lists the credit packs with their bullets and a
    "best value" badge, preselects a pack, and runs a purchase as
    create-order → checkout widget → verify, reporting the new balance. */
module CreditModal {
  import opened Base
  import opened Js
  import opened Http
  import opened Plans
  import Text
  import Pricing
  import CreateRoute
  import VerifyRoute

  /** The pack selected once the packs are loaded: the caller's
      `selectedPackId` when non-empty, otherwise the first pack, otherwise
      the selection stays what it was. */
  function DefaultSelection(selectedPackId: Option<string>, packs: seq<Plan>,
                            current: Option<string>): (r: Option<string>)
    ensures selectedPackId.Some? && selectedPackId.value != "" ==> r == selectedPackId
    ensures !(selectedPackId.Some? && selectedPackId.value != "") && |packs| > 0 ==>
              r == Some(packs[0].id)
    ensures !(selectedPackId.Some? && selectedPackId.value != "") && |packs| == 0 ==> r == current
    ensures r.None? ==> current.None? && |packs| == 0
    ensures r != selectedPackId && r != current ==> |packs| > 0 && r == Some(packs[0].id)
  {
    if selectedPackId.Some? && selectedPackId.value != "" then selectedPackId
    else if |packs| > 0 then Some(packs[0].id)
    else current
  }

  /** `p.trim().length > 0`. */
  predicate NonBlank(line: string) {
    Text.Trim(line) != ""
  }

  /** `description.split('\n').filter(p => p.trim().length > 0)`: the lines
      that do not trim to nothing, in order, each as often as it occurs. */
  function Bullets(description: string): (r: seq<string>)
    ensures forall i :: 0 <= i < |r| ==> NonBlank(r[i])
    ensures IsSubsequence(r, Text.Split(description, "\n"))
    ensures forall line :: multiset(r)[line] ==
              if NonBlank(line) then multiset(Text.Split(description, "\n"))[line] else 0
  {
    Filter(Text.Split(description, "\n"), NonBlank)
  }

  /** No bullet is all white space. */
  lemma BulletsAreNotBlank(description: string)
    ensures forall i :: 0 <= i < |Bullets(description)| ==> !Text.IsBlank(Bullets(description)[i])
  {
    var r := Bullets(description);
    forall i | 0 <= i < |r| ensures !Text.IsBlank(r[i]) {
      Text.TrimEmptyIffBlank(r[i]);
    }
  }

  /** Every line that is not all white space is a bullet, as often as it is a line. */
  lemma BulletsKeepNonBlankLines(description: string)
    ensures forall line :: multiset(Bullets(description))[line] ==
              if Text.IsBlank(line) then 0 else multiset(Text.Split(description, "\n"))[line]
  {
    var r := Bullets(description);
    forall line ensures multiset(r)[line] ==
                          if Text.IsBlank(line) then 0 else multiset(Text.Split(description, "\n"))[line] {
      Text.TrimEmptyIffBlank(line);
    }
  }

  /** The modal's bullets are the pricing page's lines with the blank ones dropped. */
  lemma BulletsAreNonBlankLines(description: string)
    ensures Bullets(description) == Filter(Pricing.ParseDescription(description), NonBlank)
  {
    if description == "" {
      assert Text.Split(description, "\n") == [""];
      Text.TrimEmptyIffBlank("");
    }
  }

  /** The pack's Buy button while `processing` names the pack being bought. */
  datatype Button = Button(loading: bool, disabled: bool, caption: string)

  function BuyButton(processing: Option<string>, packId: string): (b: Button)
    ensures b.loading <==> processing == Some(packId)
    ensures b.disabled <==> processing.Some? && processing.value != packId
    ensures !(b.loading && b.disabled)
    ensures b.loading || b.disabled <==> processing.Some?
    ensures b.caption == if b.loading then "Processing..." else "Buy"
  {
    var loading := processing == Some(packId);
    Button(loading, processing.Some? && processing.value != packId,
           if loading then "Processing..." else "Buy")
  }

  /** The body posted to the create route for a pack. */
  function OrderBody(pack: Plan, userId: string): (v: Value)
    ensures CreateRoute.RequestOf(v).packId == Str(pack.id)
    ensures CreateRoute.RequestOf(v).amount == Num(pack.price)
    ensures CreateRoute.RequestOf(v).credits == Num(pack.credits)
  {
    Obj(map["packId" := Str(pack.id), "amount" := Num(pack.price), "planId" := Str(pack.id),
            "credits" := Num(pack.credits),
            "notes" := Obj(map["userId" := Str(userId), "packName" := Str(pack.name),
                               "credits" := Num(pack.credits), "packId" := Str(pack.id)])])
  }

  /** The create route accepts a pack's order exactly when its id is
      non-empty and its price and credits are non-zero. */
  lemma OrderBodyAccepted(pack: Plan, userId: string)
    ensures CreateRoute.HasRequired(CreateRoute.RequestOf(OrderBody(pack, userId)))
            <==> pack.id != "" && pack.price != 0 && pack.credits != 0
  {
  }

  /** The options handed to the checkout widget. */
  datatype Checkout = Checkout(
    key: Value, amount: Value, currency: Value, description: string, orderId: Value,
    prefillName: string, prefillEmail: string, notes: map<string, Value>)

  /** How `handleDirectPurchase` ends once the order reply is in. */
  datatype Purchase = Alerted(message: string) | Opened(options: Checkout)

  const OrderFailedAlert := "Failed to create payment order. Please try again."
  const GatewayMissingAlert := "Payment gateway not available. Please refresh the page and try again."
  const PurchaseErrorAlert := "There was an error initiating the payment. Please try again."

  /** `orderData` cannot go to the checkout: nullish, or without a Razorpay order id. */
  predicate OrderUnusable(orderData: Value) {
    !Truthy(orderData) || !Truthy(Get(orderData, "razorpayOrderId"))
  }

  /** The purchase after `orderResponse.json()` settled as `reply`.
      `gatewayLoaded` says whether the checkout script is present and
      `defaultKey` is the key used when the reply carries none. The
      `setSelectedPack(pack.id)` done before the order request is not part
      of this result, and a throw from constructing the widget is taken to
      open it (the source shows the same error alert as for a failed fetch). */
  function AfterOrder(pack: Plan, userId: string, userName: string, userEmail: string,
                      defaultKey: Value, reply: Await<Value>, gatewayLoaded: bool): (p: Purchase)
    ensures reply.Rejected? ==> p == Alerted(PurchaseErrorAlert)
    ensures reply.Resolved? && OrderUnusable(reply.value) ==> p == Alerted(OrderFailedAlert)
    ensures p.Opened? <==> reply.Resolved? && !OrderUnusable(reply.value) && gatewayLoaded
    ensures p.Opened? ==>
              && p.options.orderId == Get(reply.value, "razorpayOrderId")
              && Truthy(p.options.orderId)
              && p.options.amount == Get(reply.value, "amount")
              && p.options.currency == Or(Get(reply.value, "currency"), Str(CreateRoute.Currency))
              && p.options.key == Or(Get(reply.value, "keyId"), defaultKey)
              && p.options.prefillName != "" && p.options.prefillEmail != ""
              && "userId" in p.options.notes && p.options.notes["userId"] == Str(userId)
              && "packId" in p.options.notes && p.options.notes["packId"] == Str(pack.id)
              && "credits" in p.options.notes && p.options.notes["credits"] == Num(pack.credits)
              && "orderId" in p.options.notes && p.options.notes["orderId"] == Get(reply.value, "orderId")
  {
    match reply
    case Rejected(_) => Alerted(PurchaseErrorAlert)
    case Resolved(orderData) =>
      if OrderUnusable(orderData) then Alerted(OrderFailedAlert)
      else if !gatewayLoaded then Alerted(GatewayMissingAlert)
      else
        Opened(Checkout(
          Or(Get(orderData, "keyId"), defaultKey),
          Get(orderData, "amount"),
          Or(Get(orderData, "currency"), Str(CreateRoute.Currency)),
          pack.name + " - " + IntDecimal(pack.credits) + " Credits",
          Get(orderData, "razorpayOrderId"),
          if userName != "" then userName else "User",
          if userEmail != "" then userEmail else "user@example.com",
          map["userId" := Str(userId), "packId" := Str(pack.id),
              "credits" := Num(pack.credits), "orderId" := Get(orderData, "orderId")]))
  }

  /** A reply carrying a Razorpay order id, an amount, INR and a local order
      id opens the checkout with exactly those. */
  lemma OpensWithReply(pack: Plan, userId: string, userName: string, userEmail: string,
                       defaultKey: Value, reply: Value, amount: int, orderId: string)
    requires Truthy(reply) && Truthy(Get(reply, "razorpayOrderId"))
    requires Get(reply, "amount") == Num(amount) && Get(reply, "currency") == Str("INR")
    requires Get(reply, "orderId") == Str(orderId)
    ensures var p := AfterOrder(pack, userId, userName, userEmail, defaultKey, Resolved(reply), true);
            && p.Opened?
            && p.options.amount == Num(amount)
            && p.options.currency == Str("INR")
            && "orderId" in p.options.notes && p.options.notes["orderId"] == Str(orderId)
  {
  }

  /** A successful order from the create route opens the checkout for the
      pack's price in paise, in rupees' currency, for the session's order. */
  lemma CheckoutChargesPackPrice(
    pack: Plan, userId: string, userName: string, userEmail: string, defaultKey: Value,
    keyId: string, session: Await<Option<Session>>, now: nat, random: real,
    insert: CreateRoute.OrderRow -> Await<Reply>,
    provider: CreateRoute.ProviderRequest -> Await<Value>,
    update: (string, Value) -> Await<Reply>)
    requires 0.0 <= random < 1.0
    requires CreateRoute.Handle(keyId, session, Resolved(OrderBody(pack, userId)), now, random,
                                insert, provider, update).response.status == 200
    ensures var o := CreateRoute.Handle(keyId, session, Resolved(OrderBody(pack, userId)), now, random,
                                        insert, provider, update);
            var p := AfterOrder(pack, userId, userName, userEmail, defaultKey,
                                Resolved(Obj(o.response.body)), true);
            && p.Opened?
            && p.options.amount == Num(pack.price * CreateRoute.MinorUnits)
            && p.options.currency == Str("INR")
            && "orderId" in p.options.notes && p.options.notes["orderId"] == Str(CreateRoute.OrderId(now, random))
  {
    var body := OrderBody(pack, userId);
    var o := CreateRoute.Handle(keyId, session, Resolved(body), now, random,
                                insert, provider, update);
    var reply := Obj(o.response.body);
    // the create route echoes `amount * 100` of the amount the modal posted
    assert CreateRoute.RequestOf(body).amount == Num(pack.price);
    assert Get(reply, "amount") == Field(o.response, "amount");
    assert Get(reply, "razorpayOrderId") == Field(o.response, "razorpayOrderId");
    assert Get(reply, "currency") == Field(o.response, "currency");
    assert Get(reply, "orderId") == Field(o.response, "orderId");
    OpensWithReply(pack, userId, userName, userEmail, defaultKey, reply,
                   pack.price * CreateRoute.MinorUnits, CreateRoute.OrderId(now, random));
  }

  /** The body posted to the verify route with the widget's response. */
  function VerifyBody(widget: Value, pack: Plan, userId: string): (v: Value)
    ensures VerifyRoute.PayloadOf(v).userId == Str(userId)
    ensures VerifyRoute.PayloadOf(v).credits == Num(pack.credits)
    ensures VerifyRoute.PayloadOf(v).packId == Str(pack.id)
    ensures VerifyRoute.PayloadOf(v).orderId == Get(widget, "razorpay_order_id")
    ensures VerifyRoute.PayloadOf(v).paymentId == Get(widget, "razorpay_payment_id")
    ensures VerifyRoute.PayloadOf(v).signature == Get(widget, "razorpay_signature")
  {
    Obj(map["razorpay_payment_id" := Get(widget, "razorpay_payment_id"),
            "razorpay_order_id" := Get(widget, "razorpay_order_id"),
            "razorpay_signature" := Get(widget, "razorpay_signature"),
            "packId" := Str(pack.id), "userId" := Str(userId), "credits" := Num(pack.credits)])
  }

  /** The modal names its own user, so the verify route's session check
      passes exactly when the signed-in user is the modal's user. */
  lemma VerifyBodyNamesModalUser(widget: Value, pack: Plan, userId: string, session: Option<Session>)
    ensures VerifyRoute.SessionMatches(session, VerifyRoute.PayloadOf(VerifyBody(widget, pack, userId)))
            <==> session == Some(Session(userId))
  {
  }

  /** What the modal does with the verify route's reply. */
  datatype Effect = CreditsUpdated(credits: Value) | Closed | AlertShown(message: string)

  const VerificationFailedAlert := "Payment verification failed. Please contact support."

  /** The checkout handler's reaction to `verificationResponse.json()`;
      `hasCallback` says whether `onCreditsUpdated` was passed. A rejection,
      or a nullish reply, throws inside the widget's callback and does nothing. */
  function AfterVerification(reply: Await<Value>, hasCallback: bool): (effects: seq<Effect>)
    ensures forall c :: CreditsUpdated(c) in effects <==>
              && hasCallback && reply.Resolved? && !reply.value.IsNullish()
              && Truthy(Get(reply.value, "success"))
              && Truthy(Get(reply.value, "credits")) && c == Get(reply.value, "credits")
    ensures Closed in effects <==>
              reply.Resolved? && !reply.value.IsNullish() && Truthy(Get(reply.value, "success"))
    ensures AlertShown(VerificationFailedAlert) in effects <==>
              reply.Resolved? && !reply.value.IsNullish() && !Truthy(Get(reply.value, "success"))
    ensures |effects| <= 2
  {
    match reply
    case Rejected(_) => []
    case Resolved(data) =>
      if data.IsNullish() then []
      else if Truthy(Get(data, "success")) then
        var credits := Get(data, "credits");
        (if hasCallback && Truthy(credits) then [CreditsUpdated(credits)] else []) + [Closed]
      else [AlertShown(VerificationFailedAlert)]
  }

  /** The modal closes after a purchase only when the verify route answered
      200, which it does only for a payment the procedure credited. */
  lemma ClosesOnlyWhenCredited(
    secret: string, hmac: VerifyRoute.Hmac, body: Await<Value>,
    session: Await<Option<Session>>,
    credit: VerifyRoute.CreditArgs -> Await<Reply>, hasCallback: bool)
    ensures var o := VerifyRoute.Handle(secret, hmac, body, session, credit);
            && ((Closed in AfterVerification(Resolved(Obj(o.response.body)), hasCallback))
                == (o.response.status == 200))
            && (o.response.status == 200 ==>
                  VerifyRoute.Credited(credit(VerifyRoute.ArgsFor(VerifyRoute.PayloadOf(body.value)))))
  {
    var o := VerifyRoute.Handle(secret, hmac, body, session, credit);
    assert Get(Obj(o.response.body), "success") == Field(o.response, "success");
  }
}

=== FILE: dashboard.dfy ===
/** The dashboard page's state and the handlers that change it: loading
    the profile, a credit top-up reported by the credit modal, choosing a
    pack to buy, saving the display name, and picking the tab's content. */
module Dashboard {
  import opened Base
  import opened Js
  import opened Http
  import Toasts

  /** The free-plan threshold: a user with at most this many credits is shown as free. */
  const FreeCredits := 3

  datatype State = State(
    credits: Value, isFreeUser: bool, username: Value, displayName: Value,
    userId: string, selectedCreditPackId: Option<string>,
    creditModalOpen: bool, profileModalOpen: bool, toasts: seq<Toasts.Toast>,
    userEmail: Value)

  /** The badge agrees with the balance: free exactly when the credits are at most three. */
  predicate Consistent(s: State) {
    s.isFreeUser == AtMost(s.credits, FreeCredits)
  }

  const Initial: State :=
    State(Num(0), true, Str("coderduo"), Str("coderduo"), "", None, false, false, [], Null)

  lemma InitialConsistent()
    ensures Consistent(Initial)
  {
  }

  /** `authData?.user?.email` of the settled `auth.getUser()` data. */
  function AuthEmail(authData: Value): Value {
    OptGet(OptGet(authData, "user"), "email")
  }

  /** The profile row query succeeded with a row. */
  predicate RowLoaded(row: Await<Reply>) {
    row.Resolved? && !Truthy(row.value.error) && Truthy(row.value.data)
  }

  /** `fetchUserProfile` with `auth` the settled `auth.getUser()` data and
      `row` the settled `users` row query: a truthy email is recorded first,
      whatever the query then gives; a row sets the names and the balance,
      a missing balance counting as 0; a throw from `getUser` ends it
      before the query. */
  function LoadProfile(s: State, auth: Await<Value>, row: Await<Reply>): (r: State)
    ensures Consistent(s) ==> Consistent(r)
    // a throw from getUser changes nothing
    ensures auth.Rejected? ==> r == s
    // the email is recorded exactly when getUser gives a truthy one
    ensures auth.Resolved? && Truthy(AuthEmail(auth.value)) ==> r.userEmail == AuthEmail(auth.value)
    ensures !(auth.Resolved? && Truthy(AuthEmail(auth.value))) ==> r.userEmail == s.userEmail
    ensures auth.Resolved? && RowLoaded(row) ==>
              && r.credits == Or(Get(row.value.data, "credits"), Num(0))
              && Consistent(r)
              && r.username == Or(Get(row.value.data, "name"), Str(""))
              && r.displayName == Or(Get(row.value.data, "name"), Str("Coder"))
    // an error or no row leaves everything but the email alone
    ensures !(auth.Resolved? && RowLoaded(row)) ==> r.(userEmail := s.userEmail) == s
    // only the email, the balance, the badge and the two names change
    ensures r.(credits := s.credits, isFreeUser := s.isFreeUser,
               username := s.username, displayName := s.displayName,
               userEmail := s.userEmail) == s
  {
    match auth
    case Rejected(_) => s
    case Resolved(authData) =>
      var email := AuthEmail(authData);
      var s1 := if Truthy(email) then s.(userEmail := email) else s;
      match row
      case Rejected(_) => s1
      case Resolved(reply) =>
        if Truthy(reply.error) || !Truthy(reply.data) then s1
        else
          var credits := Or(Get(reply.data, "credits"), Num(0));
          s1.(username := Or(Get(reply.data, "name"), Str("")),
              isFreeUser := AtMost(credits, FreeCredits),
              credits := credits,
              displayName := Or(Get(reply.data, "name"), Str("Coder")))
  }

  /** `handleCreditUpdate(newCredits)`: record the new balance, recompute
      the badge, announce it in a success toast and close the credit modal. */
  function HandleCreditUpdate(s: State, newCredits: Value, toastId: string): (r: State)
    ensures r.credits == newCredits && Consistent(r)
    ensures !r.creditModalOpen
    ensures |r.toasts| == |s.toasts| + 1 && r.toasts[..|s.toasts|] == s.toasts
    ensures r.toasts[|s.toasts|] ==
              Toasts.Toast(toastId, Toasts.Success, "Credits Updated",
                           Some("Your account has been credited. You now have "
                                + Render(newCredits) + " credits."))
    ensures r.userId == s.userId && r.selectedCreditPackId == s.selectedCreditPackId
    // only the balance, the badge, the toasts and the credit modal change
    ensures r.(credits := s.credits, isFreeUser := s.isFreeUser,
               toasts := s.toasts, creditModalOpen := s.creditModalOpen) == s
  {
    var shown := Toasts.ShowSuccess(s.toasts, toastId, "Credits Updated",
                   Some("Your account has been credited. You now have "
                        + Render(newCredits) + " credits."), None);
    s.(credits := newCredits, isFreeUser := AtMost(newCredits, FreeCredits),
       toasts := shown.toasts, creditModalOpen := false)
  }

  /** `buyCredits(packId)`: remember a non-empty pack id and open the
      modal, at once when the checkout script is loaded and otherwise after
      loading it (which this model leaves pending). */
  datatype Opening = Opening(state: State, loadsScript: bool)

  function BuyCredits(s: State, packId: Option<string>, scriptLoaded: bool): (o: Opening)
    ensures packId.Some? && packId.value != "" ==> o.state.selectedCreditPackId == packId
    ensures !(packId.Some? && packId.value != "") ==>
              o.state.selectedCreditPackId == s.selectedCreditPackId
    ensures o.state.creditModalOpen <==> scriptLoaded || s.creditModalOpen
    ensures o.loadsScript <==> !scriptLoaded
    ensures Consistent(s) ==> Consistent(o.state)
    ensures o.state.credits == s.credits && o.state.toasts == s.toasts
    // only the selected pack and the credit modal change
    ensures o.state.(selectedCreditPackId := s.selectedCreditPackId,
                     creditModalOpen := s.creditModalOpen) == s
  {
    var selected := if packId.Some? && packId.value != "" then packId else s.selectedCreditPackId;
    var s' := s.(selectedCreditPackId := selected);
    if scriptLoaded then Opening(s'.(creditModalOpen := true), false)
    else Opening(s', true)
  }

  /** The update `saveProfile` sends: `{ name: displayName }` on the user's row. */
  datatype NameUpdate = NameUpdate(name: Value, userId: string)

  datatype Saved = Saved(state: State, request: Option<NameUpdate>)

  /** `saveProfile` with `db` the settled update: nothing at all without a
      user id; on success the username becomes the display name and the
      profile modal closes; an error or a throw changes nothing. */
  function SaveProfile(s: State, db: NameUpdate -> Await<Reply>): (o: Saved)
    ensures s.userId == "" ==> o == Saved(s, None)
    ensures s.userId != "" ==> o.request == Some(NameUpdate(s.displayName, s.userId))
    ensures s.userId != "" && db(NameUpdate(s.displayName, s.userId)).Resolved?
            && !Truthy(db(NameUpdate(s.displayName, s.userId)).value.error) ==>
              o.state == s.(username := s.displayName, profileModalOpen := false)
    ensures o.state != s ==>
              && s.userId != "" && db(NameUpdate(s.displayName, s.userId)).Resolved?
              && !Truthy(db(NameUpdate(s.displayName, s.userId)).value.error)
              && o.state == s.(username := s.displayName, profileModalOpen := false)
    ensures Consistent(s) ==> Consistent(o.state)
  {
    if s.userId == "" then Saved(s, None)
    else
      var request := NameUpdate(s.displayName, s.userId);
      match db(request)
      case Rejected(_) => Saved(s, Some(request))
      case Resolved(reply) =>
        if Truthy(reply.error) then Saved(s, Some(request))
        else Saved(s.(username := s.displayName, profileModalOpen := false), Some(request))
  }

  /** The sections `renderContent` can show. */
  datatype Section = Activity | QuestionBank | Practice | Solutions

  /** `renderContent()` for the active tab: null for an unknown tab. */
  function RenderContent(activeTab: string): (r: Option<Section>)
    ensures r.None? <==> activeTab !in {"home", "bank", "problems", "solutions"}
    ensures r == Some(QuestionBank) <==> activeTab == "bank"
    ensures r == Some(Activity) <==> activeTab == "home"
  {
    match activeTab
    case "home" => Some(Activity)
    case "bank" => Some(QuestionBank)
    case "problems" => Some(Practice)
    case "solutions" => Some(Solutions)
    case _ => None
  }
}

=== FILE: faq.dfy ===
/** The FAQ accordion on the "about us" page: at most one answer is open,
    clicking a question opens it or, when it is the open one, closes it,
    and every item's animation follows the new state. Column items mark
    bold runs with `**`. */
module Faq {
  import opened Base
  import Text

  datatype Column = Column(title: string, items: seq<string>)

  datatype Answer =
    | TextAnswer(content: string)
    | ListAnswer(entries: seq<string>)
    | ColumnsAnswer(columns: seq<Column>)

  datatype Item = Item(question: string, answer: Answer)

  /** The question open when the page is first shown (the third one). */
  const InitialActive: Option<nat> := Some(2)

  /** `toggleFaq(index)`: the open question closes, any other opens. */
  function Toggle(active: Option<nat>, index: nat): (r: Option<nat>)
    ensures r == Some(index) <==> active != Some(index)
    ensures r.None? <==> active == Some(index)
  {
    if active == Some(index) then None else Some(index)
  }

  /** Toggling the same question twice restores the state exactly when that
      question was open or nothing was; otherwise everything ends closed. */
  lemma ToggleTwice(active: Option<nat>, index: nat)
    ensures Toggle(Toggle(active, index), index) == active <==> active.None? || active == Some(index)
    ensures Toggle(Toggle(active, index), index).None? <==> active != Some(index)
  {
  }

  /** An item's timeline after a toggle. */
  datatype Motion = Play | Reverse

  /** The timelines of `count` items after a toggle to `active`: the new
      open item plays, every other item reverses. */
  function Motions(count: nat, active: Option<nat>): (ms: seq<Motion>)
    ensures |ms| == count
    ensures forall i :: 0 <= i < count ==> (ms[i] == Play <==> active == Some(i))
  {
    seq(count, i requires 0 <= i < count => if active == Some(i) then Play else Reverse)
  }

  /** After any toggle at most one timeline plays, and it is the clicked one. */
  lemma AtMostOnePlays(count: nat, active: Option<nat>, index: nat)
    ensures var ms := Motions(count, Toggle(active, index));
            && (forall i, j :: 0 <= i < count && 0 <= j < count && ms[i] == Play && ms[j] == Play ==> i == j)
            && (forall i :: 0 <= i < count && ms[i] == Play ==> i == index)
  {
  }

  /** A run of column text: plain, or bold when it stood between `**` marks. */
  datatype Segment = Plain(text: string) | Bold(text: string)

  function Texts(segs: seq<Segment>): (ts: seq<string>)
    ensures |ts| == |segs| && forall i :: 0 <= i < |segs| ==> ts[i] == segs[i].text
  {
    seq(|segs|, i requires 0 <= i < |segs| => segs[i].text)
  }

  /** `renderBoldText`: split on `**`; the odd-numbered parts are bold. */
  function RenderBold(text: string): (segs: seq<Segment>)
    ensures |segs| > 0
    ensures forall i :: 0 <= i < |segs| ==> (segs[i].Bold? <==> i % 2 == 1)
    ensures Text.Join(Texts(segs), "**") == text
    ensures forall i :: 0 <= i < |segs| ==> !Text.Occurs("**", segs[i].text)
  {
    var parts := Text.Split(text, "**");
    var segs := seq(|parts|, i requires 0 <= i < |parts| =>
                      if i % 2 == 1 then Bold(parts[i]) else Plain(parts[i]));
    assert Texts(segs) == parts;
    Text.JoinSplit(text, "**");
    Text.SplitPartsAvoidSep(text, "**");
    segs
  }

  /** What `renderAnswer` shows. */
  datatype Rendered =
    | Paragraph(content: string)
    | BulletList(entries: seq<string>)
    | ColumnGrid(titles: seq<string>, items: seq<seq<seq<Segment>>>)

  /** `renderAnswer`: text and list entries are shown verbatim; only column
      items go through `renderBoldText`. */
  function RenderAnswer(answer: Answer): (r: Rendered)
    ensures answer.TextAnswer? ==> r == Paragraph(answer.content)
    ensures answer.ListAnswer? ==> r == BulletList(answer.entries)
    ensures answer.ColumnsAnswer? ==>
              && r.ColumnGrid?
              && |r.titles| == |answer.columns| == |r.items|
              && forall c :: 0 <= c < |answer.columns| ==>
                   && r.titles[c] == answer.columns[c].title
                   && |r.items[c]| == |answer.columns[c].items|
                   && forall k :: 0 <= k < |answer.columns[c].items| ==>
                        && r.items[c][k] == RenderBold(answer.columns[c].items[k])
                        && Text.Join(Texts(r.items[c][k]), "**") == answer.columns[c].items[k]
  {
    match answer
    case TextAnswer(content) => Paragraph(content)
    case ListAnswer(entries) => BulletList(entries)
    case ColumnsAnswer(columns) =>
      ColumnGrid(
        seq(|columns|, c requires 0 <= c < |columns| => columns[c].title),
        seq(|columns|, c requires 0 <= c < |columns| =>
          seq(|columns[c].items|, k requires 0 <= k < |columns[c].items| =>
            RenderBold(columns[c].items[k]))))
  }
}

=== FILE: http.dfy ===
/** What a Next.js route handler exchanges with the outside world: the
    settled results of the calls it awaits, the session it reads, the
    `{ data, error }` replies of the hosted database, and its responses. */
module Http {
  import Js

  /** What a `throw` or a rejected promise carries. */
  datatype Thrown = ErrorInstance(message: string) | NonError(value: Js.Value)

  /** The settled result of an awaited call. */
  datatype Await<T> = Resolved(value: T) | Rejected(reason: Thrown)

  /** An authenticated session; only the user id is used. */
  datatype Session = Session(userId: string)

  /** The `{ data, error }` pair every database query and RPC resolves to. */
  datatype Reply = Reply(data: Js.Value, error: Js.Value)

  /** An absolute URL: origin (`https://host`), path, and query without the `?`. */
  datatype Url = Url(origin: string, path: string, query: string)

  /** `NextResponse.json(body, { status })`, with the body as the object
      handed over (before serialisation drops undefined fields), or
      `NextResponse.redirect(url)`. */
  datatype Response =
    | Json(status: int, body: map<string, Js.Value>)
    | Redirect(location: Url)

  /** A field of a JSON response body; undefined when absent or for a redirect. */
  function Field(r: Response, k: string): Js.Value {
    if r.Json? && k in r.body then r.body[k] else Js.Undefined
  }

  /** A JSON response whose body is `{ error }`. */
  function ErrorJson(status: int, message: string): (r: Response)
    ensures r.Json? && r.status == status
    ensures Field(r, "error") == Js.Str(message)
  {
    Json(status, map["error" := Js.Str(message)])
  }
}

=== FILE: js.dfy ===
/** JavaScript values as the route handlers receive them from `req.json()`
    and from remote calls, and the few language operations the handlers
    apply to them: truthiness, `||`, property access, `String(v)`,
    `Number(v)`, multiplication by a constant and object spread.
    Numbers are integers; fractional numbers are not modelled. */
module Js {
  import Text

  datatype Value =
    | Undefined
    | Null
    | Bool(b: bool)
    | Num(n: int)
    | NaN
    | Str(s: string)
    | Arr(items: seq<Value>)
    | Obj(fields: map<string, Value>)
  {
    /** `null` or `undefined`: reading a property of it throws a TypeError. */
    predicate IsNullish() {
      Undefined? || Null?
    }
  }

  /** ToBoolean: the falsy values are undefined, null, false, 0, NaN and "". */
  predicate Truthy(v: Value) {
    match v
    case Undefined => false
    case Null => false
    case Bool(b) => b
    case Num(n) => n != 0
    case NaN => false
    case Str(s) => s != ""
    case Arr(_) => true
    case Obj(_) => true
  }

  /** `a || b`: the first operand when it is truthy, else the second. */
  function Or(a: Value, b: Value): (r: Value)
    ensures r == a || r == b
    ensures Truthy(r) <==> Truthy(a) || Truthy(b)
    ensures Truthy(a) ==> r == a
  {
    if Truthy(a) then a else b
  }

  /** `v.k` on a value that is not nullish: an own field of an object, and
      `undefined` otherwise (built-in properties such as `length` are not modelled). */
  function Get(v: Value, k: string): Value {
    if v.Obj? && k in v.fields then v.fields[k] else Undefined
  }

  /** `v?.k`: undefined when `v` is nullish. */
  function OptGet(v: Value, k: string): Value {
    if v.IsNullish() then Undefined else Get(v, k)
  }

  /** An object literal's field list as a value. */
  function Object(fields: map<string, Value>): Value {
    Obj(fields)
  }

  /** `{...v}`: the own fields of an object; nothing for null, undefined,
      booleans and numbers. */
  function Spread(v: Value): map<string, Value> {
    if v.Obj? then v.fields else map[]
  }

  function IntDecimal(n: int): string {
    if n < 0 then "-" + Text.Decimal(-n) else Text.Decimal(n)
  }

  /** `String(v)`, which is also what a template literal `${v}` produces. */
  function Render(v: Value): string
    decreases v
  {
    match v
    case Undefined => "undefined"
    case Null => "null"
    case Bool(b) => if b then "true" else "false"
    case Num(n) => IntDecimal(n)
    case NaN => "NaN"
    case Str(s) => s
    case Arr(items) =>
      Text.Join(seq(|items|, i requires 0 <= i < |items| =>
                      if items[i].IsNullish() then "" else Render(items[i])), ",")
    case Obj(_) => "[object Object]"
  }

  /** `Number(s)` for the integer forms of a string: blank text is 0, an
      optionally signed run of decimal digits is its value, and anything
      else is NaN. The other forms JavaScript accepts (`1.0`, `1e3`, `0x1F`,
      `Infinity`) also give NaN here. */
  function StringToNumber(s: string): (r: Value)
    ensures r.Num? || r.NaN?
  {
    var t := Text.Trim(s);
    if t == "" then Num(0)
    else if Text.AllDigits(t) then Num(Text.DigitsValue(t))
    else if |t| > 1 && t[0] == '-' && Text.AllDigits(t[1..]) then Num(-(Text.DigitsValue(t[1..]) as int))
    else if |t| > 1 && t[0] == '+' && Text.AllDigits(t[1..]) then Num(Text.DigitsValue(t[1..]))
    else NaN
  }

  /** `Number(v)`: an array converts through its string form, an object is NaN. */
  function ToNumber(v: Value): (r: Value)
    ensures r.Num? || r.NaN?
  {
    match v
    case Undefined => NaN
    case Null => Num(0)
    case Bool(b) => Num(if b then 1 else 0)
    case Num(_) => v
    case NaN => NaN
    case Str(s) => StringToNumber(s)
    case Arr(_) => StringToNumber(Render(v))
    case Obj(_) => NaN
  }

  /** `v * k` for an integer constant `k`. */
  function Times(v: Value, k: int): (r: Value)
    ensures r.Num? || r.NaN?
    ensures v.Num? ==> r == Num(v.n * k)
  {
    var x := ToNumber(v);
    if x.Num? then Num(x.n * k) else NaN
  }

  /** `v <= k` for an integer constant `k`: false when `v` is not a number. */
  predicate AtMost(v: Value, k: int) {
    var x := ToNumber(v);
    x.Num? && x.n <= k
  }

  lemma DigitsUntrimmed(s: string)
    requires |s| > 0 && Text.AllDigits(s)
    ensures Text.Trim(s) == s
  {
    assert !Text.IsSpace(s[0]);
    assert Text.TrimStart(s) == s;
    assert !Text.IsSpace(s[|s| - 1]);
  }

  /** Converting the printed form of a number back gives the number. */
  lemma RenderToNumber(n: int)
    ensures ToNumber(Str(Render(Num(n)))) == Num(n)
  {
    var m := if n < 0 then -n else n;
    var d := Text.Decimal(m);
    Text.DecimalRoundTrip(m);
    if n < 0 {
      var t := "-" + d;
      assert t[1..] == d;
      assert !Text.IsSpace(t[0]);
      assert Text.TrimStart(t) == t;
      assert !Text.IsSpace(t[|t| - 1]);
      assert Text.Trim(t) == t;
      assert !Text.AllDigits(t);
    } else {
      DigitsUntrimmed(d);
    }
  }
}

=== FILE: plans.dfy ===
/** Rows of the `plans` table and the selections the pricing page and the
    credit modal make from them: the free plan, the credit packs, and the
    "best value" pack with the lowest price per credit. */
module Plans {
  import opened Base

  /** A plan as the client reads it; `price` is in rupees, `credits` the
      number of credits a pack grants. */
  datatype Plan = Plan(id: string, name: string, price: int, description: string,
                       credits: int, isPack: bool)

  /** A JavaScript quotient of two integers: finite, an infinity, or NaN. */
  datatype Quotient = Finite(q: real) | PosInf | NegInf | NotANumber

  /** `p / c` for integers (the divisor is never `-0`). */
  function Divide(p: int, c: int): Quotient {
    if c != 0 then Finite(p as real / c as real)
    else if p > 0 then PosInf
    else if p < 0 then NegInf
    else NotANumber
  }

  /** `a < b` on quotients: false whenever either side is NaN. */
  predicate Below(a: Quotient, b: Quotient) {
    match (a, b)
    case (NotANumber, _) => false
    case (_, NotANumber) => false
    case (Finite(x), Finite(y)) => x < y
    case (NegInf, _) => !b.NegInf?
    case (_, PosInf) => !a.PosInf?
    case _ => false
  }

  function PricePerCredit(p: Plan): Quotient {
    Divide(p.price, p.credits)
  }

  predicate AllCreditsPositive(plans: seq<Plan>) {
    forall i :: 0 <= i < |plans| ==> plans[i].credits > 0
  }

  /** Price per credit strictly lower, stated without division. */
  predicate Cheaper(a: Plan, b: Plan) {
    a.price * b.credits < b.price * a.credits
  }

  /** For packs with positive credits, comparing prices per credit is
      comparing cross products. */
  lemma BelowIsCheaper(a: Plan, b: Plan)
    requires a.credits > 0 && b.credits > 0
    ensures Below(PricePerCredit(a), PricePerCredit(b)) <==> Cheaper(a, b)
  {
    // both sides are the same inequality multiplied through by a.credits * b.credits > 0
  }

  /** `getBestValuePack`: `packs.reduce((best, cur) => cur.price / cur.credits
      < best.price / best.credits ? cur : best, packs[0])`, or null for no
      packs. When every pack grants credits, the result is the first pack
      with the lowest price per credit. */
  method BestValuePack(packs: seq<Plan>) returns (best: Option<Plan>)
    ensures best.None? <==> |packs| == 0
    ensures best.Some? ==> best.value in packs
    ensures best.Some? && AllCreditsPositive(packs) ==>
              exists b :: 0 <= b < |packs| && packs[b] == best.value
                && (forall j :: 0 <= j < |packs| ==> !Cheaper(packs[j], packs[b]))
                && (forall j :: 0 <= j < b ==> Cheaper(packs[b], packs[j]))
  {
    if |packs| == 0 {
      return None;
    }
    var b := 0;
    var i := 0;
    while i < |packs|
      invariant 0 <= i <= |packs| && 0 <= b < |packs|
      invariant b == 0 || b < i
      invariant AllCreditsPositive(packs) ==>
                  forall j :: 0 <= j < i ==> !Below(PricePerCredit(packs[j]), PricePerCredit(packs[b]))
      invariant AllCreditsPositive(packs) ==>
                  forall j :: 0 <= j < b ==> Below(PricePerCredit(packs[b]), PricePerCredit(packs[j]))
    {
      if Below(PricePerCredit(packs[i]), PricePerCredit(packs[b])) {
        b := i;
      }
      i := i + 1;
    }
    if AllCreditsPositive(packs) {
      forall j | 0 <= j < |packs|
        ensures !Cheaper(packs[j], packs[b])
        ensures j < b ==> Cheaper(packs[b], packs[j])
      {
        BelowIsCheaper(packs[j], packs[b]);
        BelowIsCheaper(packs[b], packs[j]);
      }
    }
    return Some(packs[b]);
  }

  /** `allPlans.find(plan => plan.price === 0) || null`: the first free plan. */
  function FreePlan(plans: seq<Plan>): (r: Option<Plan>)
    ensures r.None? <==> forall i :: 0 <= i < |plans| ==> plans[i].price != 0
    ensures r.Some? ==>
              exists i :: 0 <= i < |plans| && plans[i] == r.value && r.value.price == 0
                && forall j :: 0 <= j < i ==> plans[j].price != 0
  {
    if |plans| == 0 then None
    else if plans[0].price == 0 then Some(plans[0])
    else
      var rest := FreePlan(plans[1..]);
      assert rest.Some? ==> (exists i :: 1 <= i < |plans| && plans[i] == rest.value
                               && forall j :: 0 <= j < i ==> plans[j].price != 0) by {
        if rest.Some? {
          var i :| 0 <= i < |plans[1..]| && plans[1..][i] == rest.value && rest.value.price == 0
            && forall j :: 0 <= j < i ==> plans[1..][j].price != 0;
          assert forall j :: 0 <= j < i + 1 ==> plans[j].price != 0 by {
            forall j | 0 <= j < i + 1 ensures plans[j].price != 0 {
              if j > 0 { assert plans[j] == plans[1..][j - 1]; }
            }
          }
          assert plans[i + 1] == rest.value;
        }
      }
      rest
  }

  /** `allPlans.filter(plan => plan.is_pack)`: the packs, in display order. */
  function CreditPacks(plans: seq<Plan>): (r: seq<Plan>)
    ensures IsSubsequence(r, plans)
    ensures forall p :: multiset(r)[p] == if p.isPack then multiset(plans)[p] else 0
  {
    Filter(plans, (p: Plan) => p.isPack)
  }
}

=== FILE: pricing.dfy ===
/** The public pricing page: the free plan, the credit packs and the best
    value among them, each plan's description shown one line per bullet. */
module Pricing {
  import opened Base
  import opened Plans
  import Text

  /** `description ? description.split('\n') : []`: blank lines are kept. */
  function ParseDescription(description: string): (lines: seq<string>)
    ensures description == "" <==> lines == []
    ensures description != "" ==> Text.Join(lines, "\n") == description
    ensures forall i :: 0 <= i < |lines| ==> '\n' !in lines[i]
  {
    if description == "" then []
    else
      Text.JoinSplit(description, "\n");
      Text.SplitPartsAvoidSep(description, "\n");
      var lines := Text.Split(description, "\n");
      assert forall i :: 0 <= i < |lines| ==> '\n' !in lines[i] by {
        forall i | 0 <= i < |lines| ensures '\n' !in lines[i] {
          Text.OccursChar('\n', lines[i]);
        }
      }
      lines
  }

  /** What the page derives from `fetchPlans()`. */
  datatype Page = Page(plans: seq<Plan>, free: Option<Plan>, packs: seq<Plan>, best: Option<Plan>)

  /** The page's state once the plans are loaded: every plan, the first free
      one, the packs in display order and the best value among the packs. */
  method Load(allPlans: seq<Plan>) returns (page: Page)
    ensures page.plans == allPlans
    ensures page.free.Some? ==> page.free.value in allPlans && page.free.value.price == 0
    ensures page.free.None? <==> forall i :: 0 <= i < |allPlans| ==> allPlans[i].price != 0
    ensures forall i :: 0 <= i < |page.packs| ==> page.packs[i].isPack
    ensures IsSubsequence(page.packs, allPlans)
    ensures page.best.None? <==> forall i :: 0 <= i < |allPlans| ==> !allPlans[i].isPack
    ensures page.best.Some? ==> page.best.value.isPack && page.best.value in allPlans
    // the free plan is the first one priced 0, and the packs are all the isPack plans in order
    ensures page.free == FreePlan(allPlans)
    ensures page.packs == CreditPacks(allPlans)
    // when every pack grants credits, the best value is the first cheapest pack
    ensures page.best.Some? && AllCreditsPositive(page.packs) ==>
              exists b :: 0 <= b < |page.packs| && page.packs[b] == page.best.value
                && (forall j :: 0 <= j < |page.packs| ==> !Cheaper(page.packs[j], page.packs[b]))
                && (forall j :: 0 <= j < b ==> Cheaper(page.packs[b], page.packs[j]))
  {
    var packs := CreditPacks(allPlans);
    var best := BestValuePack(packs);
    if |packs| == 0 {
      forall i | 0 <= i < |allPlans| ensures !allPlans[i].isPack {
        assert allPlans[i] in multiset(allPlans);
      }
    } else {
      assert packs[0] in multiset(packs);
    }
    if best.Some? {
      assert best.value in multiset(packs);
    }
    page := Page(allPlans, FreePlan(allPlans), packs, best);
  }
}

=== FILE: question_bank.dfy ===
/** The question bank's search: a blank query shows every question,
    otherwise a question is kept when the lower-cased query occurs in its
    lower-cased title, in one of its tags, or in its difficulty. */
module QuestionBank {
  import opened Base
  import Text

  /** A row of `questions_global`, as far as the search reads it. `tags`
      and `difficulty` may be missing from a row. */
  datatype Question = Question(id: string, title: string,
                               tags: Option<seq<string>>, difficulty: Option<string>)

  /** The search predicate for a query that is already lower-cased;
      `?.` makes a missing field a non-match. */
  predicate MatchesLowered(q: Question, needle: string) {
    || Text.Includes(Text.Lower(q.title), needle)
    || (q.tags.Some? && exists i :: 0 <= i < |q.tags.value|
                                    && Text.Includes(Text.Lower(q.tags.value[i]), needle))
    || (q.difficulty.Some? && Text.Includes(Text.Lower(q.difficulty.value), needle))
  }

  /** `searchQuery.toLowerCase()` is not trimmed: only the blank test trims. */
  predicate Matches(q: Question, query: string) {
    MatchesLowered(q, Text.Lower(query))
  }

  /** The list shown for `searchQuery` (`questions.filter(...)` unless the query is blank). */
  function Filter(qs: seq<Question>, query: string): (r: seq<Question>)
    ensures Text.IsBlank(query) ==> r == qs
    ensures IsSubsequence(r, qs)
    ensures !Text.IsBlank(query) ==>
              forall q :: multiset(r)[q] == if Matches(q, query) then multiset(qs)[q] else 0
  {
    Text.TrimEmptyIffBlank(query);
    SubsequenceOfItself(qs);
    if Text.Trim(query) == "" then qs
    else
      var needle := Text.Lower(query);
      Base.Filter(qs, q => MatchesLowered(q, needle))
  }

  /** The chip colour of a difficulty. */
  datatype Color = Success | Warning | Danger

  /** `getDifficultyColor`: only "easy" and "medium", in any letter case, escape "danger". */
  function DifficultyColor(difficulty: Option<string>): (c: Color)
    ensures c == Success <==> difficulty.Some? && Text.Lower(difficulty.value) == "easy"
    ensures c == Warning <==> difficulty.Some? && Text.Lower(difficulty.value) == "medium"
    ensures difficulty.None? ==> c == Danger
  {
    if difficulty.None? then Danger
    else
      var lower := Text.Lower(difficulty.value);
      if lower == "easy" then Success
      else if lower == "medium" then Warning
      else Danger
  }

  /** The route a question card navigates to. */
  function QuestionPath(q: Question): string {
    "/dashboard/question_bank/" + Text.EncodeURIComponent(q.title)
  }

  /** The title is the path's one URI-safe segment and, for an ASCII title, decodes back. */
  lemma QuestionPathCarriesTitle(q: Question)
    ensures var p := QuestionPath(q);
              && p[..25] == "/dashboard/question_bank/"
              && (forall i :: 25 <= i < |p| ==> Text.IsUriSafe(p[i]))
              && (Text.IsAscii(q.title) ==> Text.DecodeAscii(p[25..]) == q.title)
  {
    var e := Text.EncodeURIComponent(q.title);
    var p := QuestionPath(q);
    Text.EncodedIsUriSafe(q.title);
    assert p[25..] == e;
    if Text.IsAscii(q.title) {
      Text.DecodeEncodeAscii(q.title);
    }
  }
}

=== FILE: roster.dfy ===
/** The "people" page: sections of team members, each collapsible, with
    one card per member or an empty-state notice for a vacant section. */
module Roster {
  import opened Base

  datatype Project = Project(title: string, url: string)

  datatype Member = Member(
    name: string, position: string, image: Option<string>, bio: Option<string>,
    linkedin: Option<string>, website: Option<string>, twitter: Option<string>,
    fundedProjects: Option<seq<Project>>)

  datatype Section = Section(title: string, members: seq<Member>, defaultExpanded: Option<bool>)

  /** A section's expansion, keyed by title; a title without an entry reads
      as `undefined`, which is closed. */
  type Expansion = map<string, bool>

  predicate IsOpen(m: Expansion, title: string) {
    title in m && m[title]
  }

  /** No later section carries the same title as section `i`. */
  predicate LastWithTitle(sections: seq<Section>, i: int)
    requires 0 <= i < |sections|
  {
    forall j :: i < j < |sections| ==> sections[j].title != sections[i].title
  }

  /** The initial state: each section's `defaultExpanded ?? false`, in
      order, so a later section with the same title overwrites an earlier one. */
  function InitialExpanded(sections: seq<Section>): Expansion
    decreases |sections|
  {
    if |sections| == 0 then map[]
    else
      var n := |sections| - 1;
      InitialExpanded(sections[..n])[sections[n].title := sections[n].defaultExpanded.GetOr(false)]
  }

  predicate HasTitle(sections: seq<Section>, title: string) {
    exists i :: 0 <= i < |sections| && sections[i].title == title
  }

  /** Exactly the sections' titles have an entry. */
  lemma {:induction false} InitialExpandedKeys(sections: seq<Section>)
    ensures forall t :: t in InitialExpanded(sections) <==> HasTitle(sections, t)
    decreases |sections|
  {
    if |sections| > 0 {
      var n := |sections| - 1;
      var prefix := sections[..n];
      InitialExpandedKeys(prefix);
      forall t ensures t in InitialExpanded(sections) <==> HasTitle(sections, t) {
        if HasTitle(sections, t) {
          var i :| 0 <= i < |sections| && sections[i].title == t;
          if i < n { assert prefix[i].title == t; }
        }
        if HasTitle(prefix, t) {
          var i :| 0 <= i < n && prefix[i].title == t;
          assert sections[i].title == t;
        }
      }
    }
  }

  /** A title's entry is the default of the last section carrying that title. */
  lemma {:induction false} InitialExpandedLastWins(sections: seq<Section>)
    ensures forall i :: 0 <= i < |sections| && LastWithTitle(sections, i) ==>
              && sections[i].title in InitialExpanded(sections)
              && InitialExpanded(sections)[sections[i].title] == sections[i].defaultExpanded.GetOr(false)
    decreases |sections|
  {
    if |sections| > 0 {
      var n := |sections| - 1;
      var prefix := sections[..n];
      InitialExpandedLastWins(prefix);
      var m := InitialExpanded(sections);
      forall i | 0 <= i < |sections| && LastWithTitle(sections, i)
        ensures sections[i].title in m && m[sections[i].title] == sections[i].defaultExpanded.GetOr(false)
      {
        if i < n {
          assert sections[n].title != sections[i].title;
          assert prefix[i] == sections[i];
          assert LastWithTitle(prefix, i);
        }
      }
    }
  }

  /** `toggleSection(title)`: flip one section, a missing entry counting as
      closed; every other entry is kept. */
  function ToggleSection(m: Expansion, title: string): (r: Expansion)
    ensures IsOpen(r, title) <==> !IsOpen(m, title)
    ensures r.Keys == m.Keys + {title}
    ensures forall k :: k in m && k != title ==> r[k] == m[k]
  {
    m[title := !IsOpen(m, title)]
  }

  /** Toggling a section twice leaves every section as it looked, and
      leaves the map itself unchanged once the section has an entry. */
  lemma ToggleTwice(m: Expansion, title: string)
    ensures forall k :: IsOpen(ToggleSection(ToggleSection(m, title), title), k) <==> IsOpen(m, k)
    ensures title in m ==> ToggleSection(ToggleSection(m, title), title) == m
  {
  }

  /** Where a member links to, in the order the icons appear. */
  datatype Network = Website | LinkedIn | Twitter

  function Rank(n: Network): nat {
    match n
    case Website => 0
    case LinkedIn => 1
    case Twitter => 2
  }

  datatype Link = Link(network: Network, href: string)

  /** A link for a field that is present and non-empty. */
  function LinkFor(network: Network, field: Option<string>): (ls: seq<Link>)
    ensures |ls| <= 1
    ensures forall l :: l in ls ==> l.network == network
    ensures forall h :: Link(network, h) in ls <==> field == Some(h) && h != ""
  {
    if field.Some? && field.value != "" then [Link(network, field.value)] else []
  }

  /** At most one link per network, concatenated in rank order, stays in rank order. */
  lemma LinksInRankOrder(web: seq<Link>, linkedin: seq<Link>, twitter: seq<Link>)
    requires |web| <= 1 && |linkedin| <= 1 && |twitter| <= 1
    requires forall l :: l in web ==> l.network == Website
    requires forall l :: l in linkedin ==> l.network == LinkedIn
    requires forall l :: l in twitter ==> l.network == Twitter
    ensures var links := web + linkedin + twitter;
            forall i, j :: 0 <= i < j < |links| ==> Rank(links[i].network) < Rank(links[j].network)
  {
    var links := web + linkedin + twitter;
    forall i, j | 0 <= i < j < |links|
      ensures Rank(links[i].network) < Rank(links[j].network)
    {
      if i < |web| {
        assert links[i] == web[i];
        assert j >= |web|;
      } else {
        assert links[i] == linkedin[i - |web|];
        assert links[j] == twitter[j - |web| - |linkedin|];
      }
    }
  }

  datatype Card = Card(name: string, position: string, links: seq<Link>,
                       image: Option<string>, bio: Option<string>, projects: seq<Project>)

  /** `PersonCard`: the position or "MEMBER", the social links in the order
      website, LinkedIn, Twitter for the fields that are set, and the funded
      projects when there are any. */
  function PersonCard(member: Member): (c: Card)
    ensures c.position == (if member.position != "" then member.position else "MEMBER")
    ensures c.position != ""
    ensures forall h :: Link(Website, h) in c.links <==> member.website == Some(h) && h != ""
    ensures forall h :: Link(LinkedIn, h) in c.links <==> member.linkedin == Some(h) && h != ""
    ensures forall h :: Link(Twitter, h) in c.links <==> member.twitter == Some(h) && h != ""
    ensures forall i, j :: 0 <= i < j < |c.links| ==> Rank(c.links[i].network) < Rank(c.links[j].network)
    ensures c.projects == member.fundedProjects.GetOr([])
    ensures c.name == member.name
    // no image shows the NO_IMG placeholder, and no bio shows nothing
    ensures c.image.None? <==> member.image.None? || member.image == Some("")
    ensures c.image.Some? ==> c.image == member.image
    ensures c.bio.None? <==> member.bio.None? || member.bio == Some("")
    ensures c.bio.Some? ==> c.bio == member.bio
  {
    var web := LinkFor(Website, member.website);
    var linkedin := LinkFor(LinkedIn, member.linkedin);
    var twitter := LinkFor(Twitter, member.twitter);
    var links := web + linkedin + twitter;
    LinksInRankOrder(web, linkedin, twitter);
    Card(member.name,
         if member.position != "" then member.position else "MEMBER",
         links,
         if member.image.Some? && member.image.value != "" then member.image else None,
         if member.bio.Some? && member.bio.value != "" then member.bio else None,
         member.fundedProjects.GetOr([]))
  }

  /** What an open section shows. */
  datatype Body = Vacant | Cards(cards: seq<Card>)

  /** A section's body: nothing while closed, the empty-state notice when
      it has no members, otherwise one card per member in order. */
  function SectionBody(m: Expansion, section: Section): (b: Option<Body>)
    ensures b.None? <==> !IsOpen(m, section.title)
    ensures b == Some(Vacant) <==> IsOpen(m, section.title) && |section.members| == 0
    ensures b.Some? && b.value.Cards? ==>
              |b.value.cards| == |section.members| > 0
              && forall i :: 0 <= i < |section.members| ==>
                   b.value.cards[i] == PersonCard(section.members[i])
  {
    if !IsOpen(m, section.title) then None
    else if |section.members| == 0 then Some(Vacant)
    else Some(Cards(seq(|section.members|, i requires 0 <= i < |section.members| =>
                          PersonCard(section.members[i]))))
  }
}

=== FILE: text.dfy ===
/** The string built-ins the handlers and components call (`split`, `join`,
    `includes`, `toLowerCase`, `trim`, `encodeURIComponent`, decimal
    rendering of numbers), each defined over Dafny strings together with the
    property that pins it down. */
module Text {

  // ---------------------------------------------------------------------
  // Decimal notation

  predicate IsDigit(c: char) {
    '0' <= c <= '9'
  }

  predicate AllDigits(s: string) {
    forall i :: 0 <= i < |s| ==> IsDigit(s[i])
  }

  function DigitChar(d: nat): (c: char)
    requires d < 10
    ensures IsDigit(c)
  {
    ('0' as int + d) as char
  }

  /** The decimal notation of `n`, as `String(n)` writes a non-negative integer. */
  function Decimal(n: nat): (s: string)
    ensures |s| > 0 && AllDigits(s)
    decreases n
  {
    if n < 10 then [DigitChar(n)] else Decimal(n / 10) + [DigitChar(n % 10)]
  }

  /** The value of a string of decimal digits (leading zeros allowed). */
  function DigitsValue(s: string): nat
    requires AllDigits(s)
  {
    if |s| == 0 then 0 else 10 * DigitsValue(s[..|s| - 1]) + (s[|s| - 1] as int - '0' as int)
  }

  /** Reading back the decimal notation of `n` gives `n`. */
  lemma {:induction false} DecimalRoundTrip(n: nat)
    ensures DigitsValue(Decimal(n)) == n
    decreases n
  {
    if n >= 10 {
      var s := Decimal(n);
      assert s[..|s| - 1] == Decimal(n / 10);
      DecimalRoundTrip(n / 10);
    }
  }

  /** A number below 1000 takes at most three digits. */
  lemma {:induction false} DecimalBelowThousand(n: nat)
    requires n < 1000
    ensures 1 <= |Decimal(n)| <= 3
  {
    if n >= 10 {
      if n / 10 >= 10 {
        assert |Decimal(n / 10 / 10)| == 1;
      }
    }
  }

  // ---------------------------------------------------------------------
  // split / join

  /** `parts.join(sep)`. */
  function Join(parts: seq<string>, sep: string): string
    decreases |parts|
  {
    if |parts| == 0 then ""
    else if |parts| == 1 then parts[0]
    else parts[0] + sep + Join(parts[1..], sep)
  }

  /** `s.split(sep)` for a non-empty string separator: the text between
      successive non-overlapping occurrences of `sep`, scanning left to right.
      There is always at least one part. */
  function Split(s: string, sep: string): (parts: seq<string>)
    requires |sep| > 0
    ensures |parts| > 0
    decreases |s|
  {
    if |s| < |sep| then [s]
    else if s[..|sep|] == sep then [""] + Split(s[|sep|..], sep)
    else
      var rest := Split(s[1..], sep);
      [[s[0]] + rest[0]] + rest[1..]
  }

  ghost predicate OccursAt(sub: string, s: string, i: int) {
    0 <= i && i + |sub| <= |s| && s[i..i + |sub|] == sub
  }

  /** `sub` occurs somewhere in `s`. */
  ghost predicate Occurs(sub: string, s: string) {
    exists i :: OccursAt(sub, s, i)
  }

  /** A one-character string occurs exactly where the character does. */
  lemma OccursChar(c: char, s: string)
    ensures Occurs([c], s) <==> c in s
  {
    if c in s {
      var i :| 0 <= i < |s| && s[i] == c;
      assert OccursAt([c], s, i);
    }
    if Occurs([c], s) {
      var i :| OccursAt([c], s, i);
      assert s[i] == s[i..i + 1][0];
    }
  }

  lemma {:induction false} JoinCons(c: char, parts: seq<string>, sep: string)
    requires |parts| > 0
    ensures Join([[c] + parts[0]] + parts[1..], sep) == [c] + Join(parts, sep)
  {
    var q := [[c] + parts[0]] + parts[1..];
    if |parts| > 1 {
      assert q[1..] == parts[1..];
    }
  }

  lemma {:induction false} JoinStartsWithFirst(parts: seq<string>, sep: string)
    requires |parts| > 0
    ensures parts[0] <= Join(parts, sep)
  {
  }

  lemma JoinSepFirst(rest: seq<string>, sep: string)
    requires |rest| > 0
    ensures Join([""] + rest, sep) == sep + Join(rest, sep)
  {
    var parts := [""] + rest;
    assert parts[1..] == rest;
  }

  /** Joining the parts of a split with the same separator restores the text. */
  lemma {:induction false} JoinSplit(s: string, sep: string)
    requires |sep| > 0
    ensures Join(Split(s, sep), sep) == s
    decreases |s|
  {
    if |s| < |sep| {
    } else if s[..|sep|] == sep {
      var tail := s[|sep|..];
      var rest := Split(tail, sep);
      assert Split(s, sep) == [""] + rest;
      JoinSplit(tail, sep);
      JoinSepFirst(rest, sep);
      assert s == sep + tail;
    } else {
      var rest := Split(s[1..], sep);
      assert Split(s, sep) == [[s[0]] + rest[0]] + rest[1..];
      JoinSplit(s[1..], sep);
      JoinCons(s[0], rest, sep);
      assert s == [s[0]] + s[1..];
    }
  }

  /** No part of a split contains the separator. */
  lemma {:induction false} SplitPartsAvoidSep(s: string, sep: string)
    requires |sep| > 0
    ensures forall k :: 0 <= k < |Split(s, sep)| ==> !Occurs(sep, Split(s, sep)[k])
    decreases |s|
  {
    var parts := Split(s, sep);
    if |s| < |sep| {
      forall i ensures !OccursAt(sep, s, i) { }
    } else if s[..|sep|] == sep {
      SplitPartsAvoidSep(s[|sep|..], sep);
      var rest := Split(s[|sep|..], sep);
      assert parts == [""] + rest;
      forall i ensures !OccursAt(sep, "", i) { }
      forall k | 0 <= k < |parts| ensures !Occurs(sep, parts[k]) {
        if k > 0 {
          assert parts[k] == rest[k - 1];
        }
      }
    } else {
      var rest := Split(s[1..], sep);
      SplitPartsAvoidSep(s[1..], sep);
      JoinSplit(s[1..], sep);
      JoinStartsWithFirst(rest, sep);
      var first := [s[0]] + rest[0];
      assert first <= s;
      forall i ensures !OccursAt(sep, first, i) {
        if i == 0 && |sep| <= |first| {
          assert first[..|sep|] == s[..|sep|];
        } else if i > 0 && i + |sep| <= |first| {
          assert first[i..i + |sep|] == rest[0][i - 1..i - 1 + |sep|];
          assert !OccursAt(sep, rest[0], i - 1);
        }
      }
      forall k | 0 <= k < |parts| ensures !Occurs(sep, parts[k]) {
        if k > 0 {
          assert parts[k] == rest[k];
        }
      }
    }
  }

  /** A text without the separator character splits into itself. */
  lemma {:induction false} SplitWithoutSep(s: string, c: char)
    requires forall i :: 0 <= i < |s| ==> s[i] != c
    ensures Split(s, [c]) == [s]
    decreases |s|
  {
    if |s| >= 1 {
      assert s[..1] == [s[0]] && s[0] != c;
      SplitWithoutSep(s[1..], c);
      assert [s[0]] + s[1..] == s;
    }
  }

  /** A separator-free prefix followed by the separator is the first part. */
  lemma {:induction false} SplitAfterPrefix(d: string, c: char, rest: string)
    requires forall i :: 0 <= i < |d| ==> d[i] != c
    ensures Split(d + [c] + rest, [c]) == [d] + Split(rest, [c])
    decreases |d|
  {
    var s := d + [c] + rest;
    if |d| == 0 {
      assert s[..1] == [c];
      assert s[1..] == rest;
    } else {
      assert s[..1] == [d[0]] && d[0] != c;
      assert s[1..] == d[1..] + [c] + rest;
      SplitAfterPrefix(d[1..], c, rest);
      assert [d[0]] + d[1..] == d;
    }
  }

  // ---------------------------------------------------------------------
  // includes

  /** `s.includes(sub)`: the empty string is included in every string. */
  function Includes(s: string, sub: string): bool
    decreases |s|
  {
    if |sub| > |s| then false
    else if s[..|sub|] == sub then true
    else Includes(s[1..], sub)
  }

  lemma {:induction false} IncludesIffOccurs(s: string, sub: string)
    ensures Includes(s, sub) <==> Occurs(sub, s)
    decreases |s|
  {
    if |sub| > |s| {
      forall i ensures !OccursAt(sub, s, i) { }
    } else if s[..|sub|] == sub {
      assert OccursAt(sub, s, 0);
    } else {
      IncludesIffOccurs(s[1..], sub);
      if Occurs(sub, s) {
        var i :| OccursAt(sub, s, i);
        assert i != 0;
        assert s[1..][i - 1..i - 1 + |sub|] == s[i..i + |sub|];
        assert OccursAt(sub, s[1..], i - 1);
      }
      if Occurs(sub, s[1..]) {
        var j :| OccursAt(sub, s[1..], j);
        assert s[1..][j..j + |sub|] == s[j + 1..j + 1 + |sub|];
        assert OccursAt(sub, s, j + 1);
      }
    }
  }

  // ---------------------------------------------------------------------
  // toLowerCase

  /** Lower-casing of one character; only the ASCII letters are mapped. */
  function LowerChar(c: char): char {
    if 'A' <= c <= 'Z' then (c as int + 32) as char else c
  }

  /** `s.toLowerCase()` for ASCII text, character by character. Letters
      outside A-Z (such as `É`) keep their case here, where JavaScript would
      lower-case them. */
  function Lower(s: string): (r: string)
    ensures |r| == |s|
    ensures forall i :: 0 <= i < |s| ==> r[i] == LowerChar(s[i])
  {
    seq(|s|, i requires 0 <= i < |s| => LowerChar(s[i]))
  }

  // ---------------------------------------------------------------------
  // trim

  /** The characters `String.prototype.trim` strips: white space and line terminators. */
  predicate IsSpace(c: char) {
    || c == ' ' || c == '\t' || c == '\n' || c == '\r' || c == '\U{000B}' || c == '\U{000C}'
    || c == '\U{00A0}' || c == '\U{FEFF}' || c == '\U{1680}' || ('\U{2000}' <= c <= '\U{200A}')
    || c == '\U{2028}' || c == '\U{2029}' || c == '\U{202F}' || c == '\U{205F}' || c == '\U{3000}'
  }

  predicate IsBlank(s: string) {
    forall i :: 0 <= i < |s| ==> IsSpace(s[i])
  }

  /** Drops the leading white space: what is removed is blank, and what is
      kept is a suffix that is empty or starts with a non-space. */
  function TrimStart(s: string): (r: string)
    ensures |r| <= |s| && r == s[|s| - |r|..]
    ensures IsBlank(s[..|s| - |r|])
    ensures r == "" || !IsSpace(r[0])
    decreases |s|
  {
    if |s| > 0 && IsSpace(s[0]) then
      var r := TrimStart(s[1..]);
      assert s[..|s| - |r|] == [s[0]] + s[1..][..|s| - 1 - |r|];
      r
    else s
  }

  /** Drops the trailing white space. */
  function TrimEnd(s: string): (r: string)
    ensures |r| <= |s| && r == s[..|r|]
    ensures IsBlank(s[|r|..])
    ensures r == "" || !IsSpace(r[|r| - 1])
    decreases |s|
  {
    if |s| > 0 && IsSpace(s[|s| - 1]) then
      var r := TrimEnd(s[..|s| - 1]);
      assert s[|r|..] == s[..|s| - 1][|r|..] + [s[|s| - 1]];
      r
    else s
  }

  /** `s.trim()`. */
  function Trim(s: string): string {
    TrimEnd(TrimStart(s))
  }

  lemma TrimStartEmptyIffBlank(s: string)
    ensures TrimStart(s) == "" <==> IsBlank(s)
  {
    var t := TrimStart(s);
    var k := |s| - |t|;
    if t != "" {
      assert t[0] == s[k];
    }
    if t == "" {
      assert s[..k] == s;
    }
  }

  lemma TrimEndEmptyIffBlank(s: string)
    ensures TrimEnd(s) == "" <==> IsBlank(s)
  {
    var t := TrimEnd(s);
    if t != "" {
      assert t[|t| - 1] == s[|t| - 1];
    }
    if t == "" {
      assert s[|t|..] == s;
    }
  }

  /** A string trims to the empty string exactly when it is all white space. */
  lemma TrimEmptyIffBlank(s: string)
    ensures Trim(s) == "" <==> IsBlank(s)
  {
    var t := TrimStart(s);
    var r := TrimEnd(t);
    TrimStartEmptyIffBlank(s);
    TrimEndEmptyIffBlank(t);
    if t != "" {
      assert !IsSpace(t[0]);
      assert !IsBlank(t);
    }
  }

  // ---------------------------------------------------------------------
  // encodeURIComponent

  /** The characters `encodeURIComponent` leaves alone. */
  predicate IsUnreserved(c: char) {
    || ('A' <= c <= 'Z') || ('a' <= c <= 'z') || ('0' <= c <= '9')
    || c == '-' || c == '_' || c == '.' || c == '!' || c == '~' || c == '*' || c == '\'' || c == '(' || c == ')'
  }

  predicate IsHexDigit(c: char) {
    ('0' <= c <= '9') || ('A' <= c <= 'F')
  }

  function HexDigit(d: nat): (c: char)
    requires d < 16
    ensures IsHexDigit(c)
  {
    if d < 10 then ('0' as int + d) as char else ('A' as int + d - 10) as char
  }

  function HexValue(c: char): (d: nat)
    requires IsHexDigit(c)
    ensures d < 16
  {
    if c <= '9' then c as int - '0' as int else c as int - 'A' as int + 10
  }

  /** The UTF-8 encoding of one Unicode scalar value. */
  function Utf8(c: char): (bytes: seq<nat>)
    ensures 1 <= |bytes| <= 4
    ensures forall i :: 0 <= i < |bytes| ==> bytes[i] < 256
  {
    var n := c as int;
    if n < 0x80 then [n]
    else if n < 0x800 then [0xC0 + n / 0x40, 0x80 + n % 0x40]
    else if n < 0x1_0000 then [0xE0 + n / 0x1000, 0x80 + (n / 0x40) % 0x40, 0x80 + n % 0x40]
    else [0xF0 + n / 0x4_0000, 0x80 + (n / 0x1000) % 0x40, 0x80 + (n / 0x40) % 0x40, 0x80 + n % 0x40]
  }

  function PercentBytes(bytes: seq<nat>): string
    requires forall i :: 0 <= i < |bytes| ==> bytes[i] < 256
  {
    if |bytes| == 0 then ""
    else ['%', HexDigit(bytes[0] / 16), HexDigit(bytes[0] % 16)] + PercentBytes(bytes[1..])
  }

  function EncodeChar(c: char): string {
    if IsUnreserved(c) then [c] else PercentBytes(Utf8(c))
  }

  /** `encodeURIComponent(s)`: unreserved characters pass through, every
      other character becomes the `%XX` escapes of its UTF-8 bytes. */
  function EncodeURIComponent(s: string): string
    decreases |s|
  {
    if |s| == 0 then "" else EncodeChar(s[0]) + EncodeURIComponent(s[1..])
  }

  /** A character that may appear in the output of `encodeURIComponent`. */
  predicate IsUriSafe(c: char) {
    IsUnreserved(c) || c == '%'
  }

  lemma {:induction false} PercentBytesSafe(bytes: seq<nat>)
    requires forall i :: 0 <= i < |bytes| ==> bytes[i] < 256
    ensures forall i :: 0 <= i < |PercentBytes(bytes)| ==> IsUriSafe(PercentBytes(bytes)[i])
    decreases |bytes|
  {
    if |bytes| > 0 {
      PercentBytesSafe(bytes[1..]);
    }
  }

  /** The encoded text holds only unreserved characters and `%`: no `/`, `?`,
      `#`, `&` or `=` can survive, so it cannot leave the query parameter it is put in. */
  lemma {:induction false} EncodedIsUriSafe(s: string)
    ensures forall i :: 0 <= i < |EncodeURIComponent(s)| ==> IsUriSafe(EncodeURIComponent(s)[i])
    decreases |s|
  {
    if |s| > 0 {
      EncodedIsUriSafe(s[1..]);
      if !IsUnreserved(s[0]) {
        PercentBytesSafe(Utf8(s[0]));
      }
    }
  }

  predicate IsAscii(s: string) {
    forall i :: 0 <= i < |s| ==> s[i] as int < 0x80
  }

  /** `decodeURIComponent` restricted to escapes of ASCII bytes; any other
      character is copied. */
  function DecodeAscii(s: string): string
    decreases |s|
  {
    if |s| == 0 then ""
    else if |s| >= 3 && s[0] == '%' && IsHexDigit(s[1]) && IsHexDigit(s[2])
            && HexValue(s[1]) * 16 + HexValue(s[2]) < 0x80 then
      [(HexValue(s[1]) * 16 + HexValue(s[2])) as char] + DecodeAscii(s[3..])
    else [s[0]] + DecodeAscii(s[1..])
  }

  lemma HexRoundTrip(d: nat)
    requires d < 16
    ensures HexValue(HexDigit(d)) == d
  {
  }

  /** Decoding the encoding of an ASCII string gives the string back. */
  lemma {:induction false} DecodeEncodeAscii(s: string)
    requires IsAscii(s)
    ensures DecodeAscii(EncodeURIComponent(s)) == s
    decreases |s|
  {
    if |s| > 0 {
      var c := s[0];
      var rest := EncodeURIComponent(s[1..]);
      DecodeEncodeAscii(s[1..]);
      var e := EncodeChar(c) + rest;
      if IsUnreserved(c) {
        assert e[0] == c && e[1..] == rest;
      } else {
        var b := c as int;
        assert Utf8(c) == [b];
        assert PercentBytes([b]) == ['%', HexDigit(b / 16), HexDigit(b % 16)] + PercentBytes([b][1..]);
        assert [b][1..] == [];
        assert EncodeChar(c) == ['%', HexDigit(b / 16), HexDigit(b % 16)];
        HexRoundTrip(b / 16);
        HexRoundTrip(b % 16);
        assert e[3..] == rest;
        assert (HexValue(e[1]) * 16 + HexValue(e[2])) as char == c;
      }
      assert s == [c] + s[1..];
    }
  }
}

=== FILE: toast.dfy ===
/** The `useToast` hook's list of notifications: adding appends one toast
    and hands back its id, removing drops every toast with an id. The id
    itself comes from `Math.random()` and is a parameter here. */
module Toasts {
  import opened Base

  datatype Kind = Success | Error | Warning | Info

  datatype Toast = Toast(id: string, kind: Kind, title: string, message: Option<string>)

  /** The list after `addToast`, the id it returns, and the delay after which
      it schedules the toast's removal (only when a duration was given). */
  datatype Added = Added(toasts: seq<Toast>, id: string, removeAfter: Option<int>)

  predicate HasId(toasts: seq<Toast>, id: string) {
    exists i :: 0 <= i < |toasts| && toasts[i].id == id
  }

  /** `addToast(type, title, message, duration)`, with `id` the random id. */
  function Add(toasts: seq<Toast>, id: string, kind: Kind, title: string,
               message: Option<string>, duration: Option<int>): (a: Added)
    ensures a.id == id && a.removeAfter == duration
    ensures |a.toasts| == |toasts| + 1 && a.toasts[..|toasts|] == toasts
    ensures a.toasts[|toasts|] == Toast(id, kind, title, message)
  {
    Added(toasts + [Toast(id, kind, title, message)], id, duration)
  }

  /** `removeToast(id)`: keep the toasts with another id. */
  function Remove(toasts: seq<Toast>, id: string): (r: seq<Toast>)
    ensures IsSubsequence(r, toasts)
    ensures forall t :: multiset(r)[t] == if t.id != id then multiset(toasts)[t] else 0
    ensures !HasId(r, id)
    ensures !HasId(toasts, id) ==> r == toasts
  {
    Filter(toasts, (t: Toast) => t.id != id)
  }

  /** Removing a fresh toast's id undoes adding it. */
  lemma RemoveUndoesAdd(toasts: seq<Toast>, id: string, kind: Kind, title: string,
                        message: Option<string>, duration: Option<int>)
    requires !HasId(toasts, id)
    ensures Remove(Add(toasts, id, kind, title, message, duration).toasts, id) == toasts
  {
    var added := Add(toasts, id, kind, title, message, duration).toasts;
    assert added == toasts + [Toast(id, kind, title, message)];
    assert Filter([Toast(id, kind, title, message)], (t: Toast) => t.id != id) == [];
    Base.FilterAppend(toasts, [Toast(id, kind, title, message)], (t: Toast) => t.id != id);
  }

  /** The four shortcuts: `addToast` with a fixed kind. */
  function ShowSuccess(toasts: seq<Toast>, id: string, title: string,
                       message: Option<string>, duration: Option<int>): (a: Added)
    ensures a.toasts == toasts + [Toast(id, Success, title, message)] && a.id == id
  {
    Add(toasts, id, Success, title, message, duration)
  }

  function ShowError(toasts: seq<Toast>, id: string, title: string,
                     message: Option<string>, duration: Option<int>): (a: Added)
    ensures a.toasts == toasts + [Toast(id, Error, title, message)] && a.id == id
  {
    Add(toasts, id, Error, title, message, duration)
  }

  function ShowWarning(toasts: seq<Toast>, id: string, title: string,
                       message: Option<string>, duration: Option<int>): (a: Added)
    ensures a.toasts == toasts + [Toast(id, Warning, title, message)] && a.id == id
  {
    Add(toasts, id, Warning, title, message, duration)
  }

  function ShowInfo(toasts: seq<Toast>, id: string, title: string,
                    message: Option<string>, duration: Option<int>): (a: Added)
    ensures a.toasts == toasts + [Toast(id, Info, title, message)] && a.id == id
  {
    Add(toasts, id, Info, title, message, duration)
  }
}

=== FILE: update_route.dfy ===
/** `POST /api/user/update`: a signed-in user updates their own profile row,
    with `credits` and `plan` stripped from the update so that the balance
    can only change through the payment procedure. */
module UpdateRoute {
  import opened Base
  import opened Js
  import opened Http

  /** The fields a profile update may never touch. */
  const Protected: set<string> := {"credits", "plan"}

  /** `const { credits, plan, ...safe } = userData`: every key of the
      request except the protected ones, with its value unchanged. */
  function Sanitize(update: Value): (safe: map<string, Value>)
    ensures forall k :: k in Protected ==> k !in safe
    ensures forall k :: k in safe <==> k in Spread(update) && k !in Protected
    ensures forall k :: k in safe ==> safe[k] == Spread(update)[k]
  {
    Spread(update) - Protected
  }

  /** `update(changes).eq('id', id)` on the `users` table. */
  datatype UpdateQuery = UpdateQuery(table: string, changes: map<string, Value>, id: string)

  /** The remote effects of one request, in order. */
  datatype Step = ReadSession | ReadBody | RunUpdate(query: UpdateQuery)

  datatype Outcome = Outcome(response: Response, steps: seq<Step>)

  const InternalError: Response := ErrorJson(500, "Internal server error")
  const Unauthorized: Response := ErrorJson(401, "Unauthorized")

  predicate Updates(o: Outcome) {
    exists s :: s in o.steps && s.RunUpdate?
  }

  /** The handler; `db` is the settled reply of the update query. */
  function Handle(session: Await<Option<Session>>, body: Await<Value>,
                  db: UpdateQuery -> Await<Reply>): (o: Outcome)
    ensures o.response.Json? && o.response.status in {200, 400, 401, 500}
    // no session: 401 and no update
    ensures session == Resolved(None) ==> o.response == Unauthorized && o.steps == [ReadSession]
    // the only update issued is the sanitised body on the caller's own row
    ensures forall s :: s in o.steps && s.RunUpdate? ==>
              && session.Resolved? && session.value.Some? && body.Resolved?
              && s.query
                 == UpdateQuery("users", Sanitize(body.value), session.value.value.userId)
    // a signed-in user with a body: exactly one update, of their own row
    ensures session.Resolved? && session.value.Some? && body.Resolved? && !body.value.IsNullish() ==>
              var q := UpdateQuery("users", Sanitize(body.value), session.value.value.userId);
              && o.steps == [ReadSession, ReadBody, RunUpdate(q)]
              // a database error is a 400 carrying the database's message
              && (db(q).Resolved? && Truthy(db(q).value.error) ==>
                    o.response == Json(400, map["error" := Get(db(q).value.error, "message")]))
              && (db(q).Resolved? && !Truthy(db(q).value.error) ==>
                    o.response == Json(200, map["data" := db(q).value.data]))
              && (db(q).Rejected? ==> o.response == InternalError)
    ensures o.response.status == 200 ==> Updates(o)
    // any throw before the update, a failed session read or an unreadable body, is the 500
    ensures session.Rejected? ==> o.response == InternalError && o.steps == [ReadSession]
    ensures session.Resolved? && session.value.Some?
            && (body.Rejected? || (body.Resolved? && body.value.IsNullish())) ==>
              o.response == InternalError && o.steps == [ReadSession, ReadBody]
  {
    match session
    case Rejected(_) => Outcome(InternalError, [ReadSession])
    case Resolved(None) => Outcome(Unauthorized, [ReadSession])
    case Resolved(Some(user)) =>
      match body
      case Rejected(_) => Outcome(InternalError, [ReadSession, ReadBody])
      case Resolved(json) =>
        if json.IsNullish() then
          // destructuring `null` throws
          Outcome(InternalError, [ReadSession, ReadBody])
        else
          var query := UpdateQuery("users", Sanitize(json), user.userId);
          var steps := [ReadSession, ReadBody, RunUpdate(query)];
          assert RunUpdate(query) in steps;
          match db(query)
          case Rejected(_) => Outcome(InternalError, steps)
          case Resolved(reply) =>
            if Truthy(reply.error) then
              Outcome(Json(400, map["error" := Get(reply.error, "message")]), steps)
            else
              Outcome(Json(200, map["data" := reply.data]), steps)
  }
}

=== FILE: verify_route.dfy ===
/** `POST /api/payment/razorpay/verify`. The handler recomputes the checkout
    signature over `order_id|payment_id`; only when it matches does it read
    the session, and only when the signed-in user is the user to be credited
    does it call the database procedure `verify_payment_and_add_credits`,
    whose reply it turns into the response. */
module VerifyRoute {
  import opened Base
  import opened Js
  import opened Http

  /** HMAC-SHA256 (RFC 2104) keyed with the first argument over the second,
      as a lower-case hex string; left uninterpreted. */
  type Hmac = (string, string) -> string

  /** The fields the handler destructures from the request body. */
  datatype Payload = Payload(
    orderId: Value, paymentId: Value, signature: Value,
    packId: Value, userId: Value, credits: Value)

  function PayloadOf(json: Value): Payload {
    Payload(Get(json, "razorpay_order_id"), Get(json, "razorpay_payment_id"),
            Get(json, "razorpay_signature"), Get(json, "packId"),
            Get(json, "userId"), Get(json, "credits"))
  }

  /** The arguments of `verify_payment_and_add_credits`. */
  datatype CreditArgs = CreditArgs(
    userId: Value, paymentId: Value, orderId: Value, credits: Value, signature: Value)

  /** The remote effects of one request, in the order they happen. */
  datatype Step = ReadBody | ReadSession | CallCredit(args: CreditArgs)

  datatype Outcome = Outcome(response: Response, steps: seq<Step>)

  /** The text the checkout signature covers: `${order_id}|${payment_id}`. */
  function SignedText(p: Payload): string {
    Render(p.orderId) + "|" + Render(p.paymentId)
  }

  /** The supplied signature is strictly equal to the recomputed one. */
  predicate SignatureMatches(secret: string, hmac: Hmac, p: Payload) {
    p.signature == Str(hmac(secret, SignedText(p)))
  }

  /** There is a session and its user is the user named in the body. */
  predicate SessionMatches(session: Option<Session>, p: Payload) {
    session.Some? && p.userId == Str(session.value.userId)
  }

  /** The procedure is called with the body's own identifiers. */
  function ArgsFor(p: Payload): CreditArgs {
    CreditArgs(p.userId, p.paymentId, p.orderId, p.credits, p.signature)
  }

  predicate CallsCredit(o: Outcome) {
    exists s :: s in o.steps && s.CallCredit?
  }

  /** The procedure's reply reports a credited payment. */
  predicate Credited(r: Await<Reply>) {
    && r.Resolved?
    && !Truthy(r.value.error)
    && Truthy(r.value.data)
    && Truthy(Get(r.value.data, "success"))
  }

  const InternalError: Response :=
    Json(500, map["error" := Str("Internal server error"), "success" := Bool(false)])

  const InvalidSignature: Response :=
    Json(400, map["error" := Str("Invalid payment signature"), "success" := Bool(false)])

  const SessionMismatch: Response :=
    Json(401, map["error" := Str("Unauthorized - User session does not match target user"),
                  "success" := Bool(false)])

  const DefaultFailure := "Payment verification failed"

  /** The response built from the procedure's `{ data, error }` reply. */
  function CreditResponse(reply: Reply): (r: Response)
    ensures r.Json?
    ensures Truthy(reply.error) ==> r.status == 500 && Field(r, "success") == Bool(false)
    ensures !Truthy(reply.error) && !(Truthy(reply.data) && Truthy(Get(reply.data, "success"))) ==>
              && r.status == 400
              && Field(r, "success") == Bool(false)
              && Field(r, "error") == Or(OptGet(reply.data, "error"), Str(DefaultFailure))
              && Field(r, "code") == Or(OptGet(reply.data, "code"), Str("UNKNOWN"))
    ensures !Truthy(reply.error) && Truthy(reply.data) && Truthy(Get(reply.data, "success")) ==>
              r.status == 200
    ensures r.status == 200 <==> Field(r, "success") == Bool(true)
    ensures r.status == 200 ==>
              && Field(r, "credits") == Get(reply.data, "new_total")
              && Field(r, "creditsAdded") == Get(reply.data, "credits_added")
              && Field(r, "previousCredits") == Get(reply.data, "previous_credits")
  {
    var result := reply.data;
    if Truthy(reply.error) then
      Json(500, map["error" := Str(DefaultFailure),
                    "details" := Str(Render(reply.error)),
                    "success" := Bool(false)])
    else if !Truthy(result) || !Truthy(Get(result, "success")) then
      Json(400, map["error" := Or(OptGet(result, "error"), Str(DefaultFailure)),
                    "code" := Or(OptGet(result, "code"), Str("UNKNOWN")),
                    "success" := Bool(false)])
    else
      Json(200, map["success" := Bool(true),
                    "message" := Str("Payment verified and credits added successfully"),
                    "credits" := Get(result, "new_total"),
                    "creditsAdded" := Get(result, "credits_added"),
                    "previousCredits" := Get(result, "previous_credits")])
  }

  /** The whole handler. `body` is the settled `req.json()`, `session` the
      settled session read, and `credit` the procedure as a function of its
      arguments. */
  function Handle(secret: string, hmac: Hmac, body: Await<Value>,
                  session: Await<Option<Session>>,
                  credit: CreditArgs -> Await<Reply>): (o: Outcome)
    ensures o.response.Json?
    ensures o.response.status in {200, 400, 401, 500}
    // fail closed: the procedure is reached only behind both guards
    ensures CallsCredit(o) ==>
              && body.Resolved? && !body.value.IsNullish()
              && SignatureMatches(secret, hmac, PayloadOf(body.value))
              && session.Resolved? && SessionMatches(session.value, PayloadOf(body.value))
    // an unreadable or null body throws: the 500, before anything else is read
    ensures body.Rejected? || (body.Resolved? && body.value.IsNullish()) ==>
              o.response == InternalError && o.steps == [ReadBody]
    // a failed session read behind a valid signature throws: the 500 and no call
    ensures body.Resolved? && !body.value.IsNullish()
            && SignatureMatches(secret, hmac, PayloadOf(body.value)) && session.Rejected? ==>
              o.response == InternalError && !CallsCredit(o)
    // a bad signature stops the request before the session is even read
    ensures body.Resolved? && !body.value.IsNullish()
            && !SignatureMatches(secret, hmac, PayloadOf(body.value)) ==>
              o.response == InvalidSignature && o.steps == [ReadBody]
    ensures ReadSession in o.steps ==>
              body.Resolved? && !body.value.IsNullish()
              && SignatureMatches(secret, hmac, PayloadOf(body.value))
    // a valid signature does not make up for another user's session
    ensures body.Resolved? && !body.value.IsNullish()
            && SignatureMatches(secret, hmac, PayloadOf(body.value))
            && session.Resolved? && !SessionMatches(session.value, PayloadOf(body.value)) ==>
              o.response == SessionMismatch && !CallsCredit(o)
    // the procedure receives exactly the body's identifiers
    // a request that passes both guards reaches the procedure, whose reply decides
    ensures body.Resolved? && !body.value.IsNullish()
            && SignatureMatches(secret, hmac, PayloadOf(body.value))
            && session.Resolved? && SessionMatches(session.value, PayloadOf(body.value)) ==>
              && CallCredit(ArgsFor(PayloadOf(body.value))) in o.steps
              && (credit(ArgsFor(PayloadOf(body.value))).Resolved? ==>
                    o.response == CreditResponse(credit(ArgsFor(PayloadOf(body.value))).value))
    ensures forall s :: s in o.steps && s.CallCredit? ==>
              body.Resolved? && s.args == ArgsFor(PayloadOf(body.value))
    // a rejected call to the procedure is a 500 without success
    ensures CallsCredit(o) && credit(ArgsFor(PayloadOf(body.value))).Rejected? ==>
              o.response == InternalError
    // `success: true` only on the one path where the payment was credited
    ensures Field(o.response, "success") in {Bool(true), Bool(false)}
    ensures Field(o.response, "success") == Bool(true) <==> o.response.status == 200
    ensures o.response.status == 200 ==>
              CallsCredit(o) && Credited(credit(ArgsFor(PayloadOf(body.value))))
  {
    match body
    case Rejected(_) => Outcome(InternalError, [ReadBody])
    case Resolved(json) =>
      if json.IsNullish() then
        // destructuring `null` throws
        Outcome(InternalError, [ReadBody])
      else
        var p := PayloadOf(json);
        if !SignatureMatches(secret, hmac, p) then
          Outcome(InvalidSignature, [ReadBody])
        else
          match session
          case Rejected(_) => Outcome(InternalError, [ReadBody, ReadSession])
          case Resolved(s) =>
            if !SessionMatches(s, p) then
              Outcome(SessionMismatch, [ReadBody, ReadSession])
            else
              var args := ArgsFor(p);
              var steps := [ReadBody, ReadSession, CallCredit(args)];
              assert CallCredit(args) in steps;
              match credit(args)
              case Rejected(_) => Outcome(InternalError, steps)
              case Resolved(reply) => Outcome(CreditResponse(reply), steps)
  }
}

=== FILE: webhook_route.dfy ===
/** `POST /api/payment/razorpay/webhook`. The handler requires the
    `x-razorpay-signature` header, checks it against an HMAC of the raw body
    before parsing anything, extracts the payment (or else the refund)
    entity, and forwards the event type and that entity to the database
    procedure `handle_razorpay_webhook`. */
module WebhookRoute {
  import opened Base
  import opened Js
  import opened Http
  import VerifyRoute

  /** The arguments of `handle_razorpay_webhook`. */
  datatype EventArgs = EventArgs(eventType: Value, payload: Value)

  /** The remote effects of one request, in order. */
  datatype Step = ReadBody | ParseBody | CallHandler(args: EventArgs)

  datatype Outcome = Outcome(response: Response, steps: seq<Step>)

  const MissingSignature: Response := ErrorJson(400, "Missing Razorpay signature")
  const InvalidSignature: Response := ErrorJson(400, "Invalid signature")
  const InvalidPayload: Response := ErrorJson(400, "Invalid webhook payload structure")
  const ProcessingFailed: Response := ErrorJson(500, "Webhook processing failed")

  /** `payload.payment?.entity || payload.refund?.entity`: the payment
      entity takes precedence; the refund entity is used only when the
      payment entity is falsy. */
  function Entity(payload: Value): (e: Value)
    ensures Truthy(OptGet(Get(payload, "payment"), "entity")) ==>
              e == OptGet(Get(payload, "payment"), "entity")
    ensures !Truthy(OptGet(Get(payload, "payment"), "entity")) ==>
              e == OptGet(Get(payload, "refund"), "entity")
  {
    Or(OptGet(Get(payload, "payment"), "entity"), OptGet(Get(payload, "refund"), "entity"))
  }

  /** The procedure's arguments for a parsed webhook whose `payload` field is not nullish. */
  function ArgsOf(data: Value): EventArgs {
    EventArgs(Get(data, "event"), Entity(Get(data, "payload")))
  }

  /** The response built from the procedure's `{ data, error }` reply. */
  function ReplyResponse(reply: Reply): (r: Response)
    ensures r.Json?
    ensures Truthy(reply.error) <==> r.status == 500
    ensures Truthy(reply.error) ==>
              && Field(r, "error") == Str("Error processing webhook")
              && Field(r, "details") == Get(reply.error, "message")
    ensures !Truthy(reply.error) ==>
              && r.status == 200
              && Field(r, "received") == Bool(true)
              && Field(r, "processed") == Bool(true)
              && Field(r, "result") == reply.data
  {
    if Truthy(reply.error) then
      Json(500, map["error" := Str("Error processing webhook"),
                    "details" := Get(reply.error, "message")])
    else
      Json(200, map["received" := Bool(true),
                    "processed" := Bool(true),
                    "result" := reply.data])
  }

  predicate Forwards(o: Outcome) {
    exists s :: s in o.steps && s.CallHandler?
  }

  /** The handler. `header` is `headers.get('x-razorpay-signature')`,
      `rawBody` the settled `req.text()`, `parse` stands for `JSON.parse`
      (None when it throws) and `handler` for the procedure. */
  function Handle(secret: string, hmac: VerifyRoute.Hmac, header: Option<string>,
                  rawBody: Await<string>, parse: string -> Option<Value>,
                  handler: EventArgs -> Await<Reply>): (o: Outcome)
    ensures o.response.Json?
    ensures o.response.status in {200, 400, 500}
    // a missing or empty header is refused before the body is read
    ensures header.None? || header == Some("") ==> o.response == MissingSignature && o.steps == []
    // the raw body must carry the header's signature before it is parsed
    ensures ParseBody in o.steps ==>
              && header.Some? && rawBody.Resolved?
              && header.value == hmac(secret, rawBody.value)
    ensures header.Some? && header.value != "" && rawBody.Resolved?
            && header.value != hmac(secret, rawBody.value) ==>
              o.response == InvalidSignature && o.steps == [ReadBody]
    // a throw before the procedure is reached is the 500 with nothing forwarded:
    // an unreadable body, a body that is not JSON, or a null event or payload
    ensures header.Some? && header.value != "" && rawBody.Rejected? ==>
              o.response == ProcessingFailed && o.steps == [ReadBody]
    ensures header.Some? && header.value != "" && rawBody.Resolved?
            && header.value == hmac(secret, rawBody.value)
            && (|| parse(rawBody.value).None?
                || parse(rawBody.value).value.IsNullish()
                || Get(parse(rawBody.value).value, "payload").IsNullish()) ==>
              o.response == ProcessingFailed && o.steps == [ReadBody, ParseBody]
    // what is forwarded is the event type and the extracted entity, and only a truthy entity
    ensures forall s :: s in o.steps && s.CallHandler? ==>
              && rawBody.Resolved? && parse(rawBody.value).Some?
              && header == Some(hmac(secret, rawBody.value))
              && s.args == ArgsOf(parse(rawBody.value).value)
              && Truthy(s.args.payload)
    // no entity: refused, nothing forwarded
    ensures header.Some? && rawBody.Resolved? && header.value == hmac(secret, rawBody.value)
            && header.value != ""
            && parse(rawBody.value).Some? && !parse(rawBody.value).value.IsNullish()
            && !Get(parse(rawBody.value).value, "payload").IsNullish()
            && !Truthy(ArgsOf(parse(rawBody.value).value).payload) ==>
              o.response == InvalidPayload && !Forwards(o)
    // a signed, well-formed event with a truthy entity is forwarded, and the reply decides
    ensures header.Some? && header.value != "" && rawBody.Resolved?
            && header.value == hmac(secret, rawBody.value)
            && parse(rawBody.value).Some? && !parse(rawBody.value).value.IsNullish()
            && !Get(parse(rawBody.value).value, "payload").IsNullish()
            && Truthy(ArgsOf(parse(rawBody.value).value).payload) ==>
              && CallHandler(ArgsOf(parse(rawBody.value).value)) in o.steps
              && (handler(ArgsOf(parse(rawBody.value).value)).Rejected? ==>
                    o.response == ProcessingFailed)
              && (handler(ArgsOf(parse(rawBody.value).value)).Resolved? ==>
                    o.response == ReplyResponse(handler(ArgsOf(parse(rawBody.value).value)).value))
    // success relays the procedure's data
    ensures o.response.status == 200 ==>
              && Forwards(o)
              && rawBody.Resolved? && parse(rawBody.value).Some?
              && handler(ArgsOf(parse(rawBody.value).value)).Resolved?
              && Field(o.response, "received") == Bool(true)
              && Field(o.response, "processed") == Bool(true)
              && Field(o.response, "result") == handler(ArgsOf(parse(rawBody.value).value)).value.data
              && !Truthy(handler(ArgsOf(parse(rawBody.value).value)).value.error)
  {
    if header.None? || header.value == "" then
      Outcome(MissingSignature, [])
    else
      match rawBody
      case Rejected(_) => Outcome(ProcessingFailed, [ReadBody])
      case Resolved(raw) =>
        if hmac(secret, raw) != header.value then
          Outcome(InvalidSignature, [ReadBody])
        else
          match parse(raw)
          case None => Outcome(ProcessingFailed, [ReadBody, ParseBody])
          case Some(data) =>
            // `data.event` and `data.payload.payment` throw on a nullish object
            if data.IsNullish() || Get(data, "payload").IsNullish() then
              Outcome(ProcessingFailed, [ReadBody, ParseBody])
            else
              var args := ArgsOf(data);
              if !Truthy(args.payload) then
                Outcome(InvalidPayload, [ReadBody, ParseBody])
              else
                var steps := [ReadBody, ParseBody, CallHandler(args)];
                assert CallHandler(args) in steps;
                match handler(args)
                case Rejected(_) => Outcome(ProcessingFailed, steps)
                case Resolved(reply) => Outcome(ReplyResponse(reply), steps)
  }
}
